=== FILE: README.md ===
# Aquarium hunt — a Dafny model

The project models a two-player browser game. Two players share a room. Each
player steers a light over a dark aquarium. A creature shows itself while a
light (or, for the two "dual" creatures, both lights) stays on it. It is
caught once a light has held on it long enough after it has shown itself.
Caught creatures move into a shared tank. There the players can drag them
around and watch them drift.

A small relay server keeps each room's shared state:
- which creatures are caught;
- where the players last dropped them in the tank.

It relays cursor, ping, capture and tank-move messages between the two
players.

Modules, one per source file:

- `MathJs` (client/math.js): clamp, smoothstep and the distance test.
- `Creatures` (client/creatures.js):
  - the thirteen-creature registry as a constant table;
  - the size-dependent thresholds;
  - the random capture-time tank placement;
  - the `byId` lookup.
- `Render` (client/render.js): `spriteMetrics` (sprite size, pulse and hit radius) and `clampSpriteToView`.
- `Hunt` (client/hunt.js): the per-frame reveal/capture engine, `updateHunt`.
- `Tank` (client/tank.js): tank placement, picking, dragging and the per-frame drift/damping/wall-bounce physics.
- `Server` and `ServerFacts` (server.js):
  - the relay server as a transition function over a map of rooms;
  - facts that span several events.
- `Aquarium` (client/aquarium.js): the client's URL parsing, message handler, mouse handlers and frame loop.
- `Text`: the JavaScript string operations the names go through (`trim`, `toLowerCase`, `split`).
- `Protocol`: the wire messages.
- `Options`: a small option type.
- `Scenarios`: end-to-end runs through the model.

Effects outside the game's logic become parameters:
- `Math.random` becomes a `Draw` of four numbers in [0, 1), one per creature per operation.
- `randomUUID` becomes the connecting client's id.
- `performance.now` becomes `now`.
- The trigonometric drift samples become a `Wave` per creature.
- The loaded images become a map from image key to natural and plain sizes.
- Whether the socket is open becomes a boolean.

Reals stand for JavaScript numbers. The mutable state of the source becomes an
immutable value that each handler returns updated. The messages a handler
sends are returned as a list.

## Model

| member | source | states |
|---|---|---|
| MathJs.Clamp | client/math.js:2 | the value when it lies in [lo, hi], lo below, hi above; lo whenever the bounds are inverted |
| MathJs.Clamp01 | client/math.js:3 | result in [0, 1], identity on [0, 1] |
| MathJs.Smooth | client/math.js:7-10 | smoothstep lies in [0, 1]; it is exactly 1 iff t >= 1 and exactly 0 iff t <= 0 |
| MathJs.SmoothMonotone | client/math.js:7-10 | smoothstep never decreases, so more progress never shows less |
| MathJs.WithinIsHypot | client/math.js:5 | the squared-distance test agrees with `Math.hypot(...) <= r` and is symmetric |
| Creatures.MkCreature | client/creatures.js:24-34 | a new creature is uncaught, with both timers and fractions at 0 and no tank place |
| Creatures.CreateCreatures | client/creatures.js:36-52 | thirteen fresh creatures, one per registry row, in order, with the row's id, name, kind, size, anchor, seed and image key |
| Creatures.RegistryWellFormed | client/creatures.js:36-52 | ids are pairwise distinct, every anchor is inside the unit square, and both dual-light ids name a registered creature |
| Creatures.PosOnCanvas | client/creatures.js:59-61 | a registered creature's anchor lies on the canvas |
| Creatures.CreatureHitR | client/creatures.js:63-65 | 110 for large creatures, 70 for small ones |
| Creatures.CreatureRevealNeed | client/creatures.js:67-69 | 0.65 s for large creatures, 0.35 s for small ones, always positive |
| Creatures.CreatureCaptureNeed | client/creatures.js:71-73 | 0.75 s for large creatures, 0.55 s for small ones, always positive |
| Creatures.MarginPlacement | client/creatures.js:78-83 | the random place lies in [90, 90 + max(10, W - 180)) by [90, 90 + max(10, H - 180)); velocity in [-30, 30) by [-20, 20) |
| Creatures.InitTank | client/creatures.js:75-84 | an existing tank place is kept; otherwise only the tank place is set, to a margin placement |
| Creatures.ById | client/aquarium.js:88 | the lookup answers the last index holding the id, and None exactly when no creature has it |
| Creatures.ByIdDistinct | client/aquarium.js:88 | with distinct ids, the lookup of a creature's own id finds that creature |
| Render.Smooth | client/render.js:3-7 | the renderer's copy of smoothstep equals the math module's |
| Render.Dim | client/render.js:119-120 | natural size if non-zero, else plain size if non-zero, else 140 |
| Render.Pulse | client/render.js:123 | the capture pulse scales a sprite between 1 and 1.18: 1 with no progress, 1.18 at full progress |
| Render.SpriteMetrics | client/render.js:117-135 | positive sprite size, half-extents are halves, and a hit radius between the size's base radius and 160 that is one of base, 160 or 0.32 of the shorter side |
| Render.MetricsOfLook | client/render.js:117-135 | metrics depend only on the image key, the size and the capture fraction |
| Render.MetricsExact | client/render.js:117-135 | the sprite's width and height are the image size times the size-class scale times the capture pulse, and the hit radius is 0.32 of the shorter side clamped between the size-class radius and 160 |
| Render.ClampSpriteToView | client/render.js:137-144 | each coordinate is clamped to the padded view: kept when inside, moved to the nearest edge when outside, and set to the lower edge when the view is too narrow for the sprite |
| Render.ClampSpriteIdempotent | client/render.js:137-144 | clamping into the view twice is clamping once |
| Hunt.FollowPartner | client/hunt.js:19-20 | the partner light closes 18 % of its gap to the reported position and never overshoots it |
| Hunt.NextReveal | client/hunt.js:36-38 | lit, the reveal timer becomes min(need, t + dt); unlit it becomes max(0, t - 0.9 dt); with non-negative inputs it grows only while lit and stays in [0, need] |
| Hunt.NextCapture | client/hunt.js:43-72 | with the gate open and a hit the capture timer becomes min(need, t + dt); otherwise it becomes max(0, t - 1.25 dt) (gate open) or max(0, t - 1.5 dt) (gate closed) |
| Hunt.Settle | client/hunt.js:55-72 | caught exactly when the gate is open and the capture timer reached its need; a caught creature shows both fractions at 1 and gets a tank place once; an uncaught one shows the smoothed ratios |
| Hunt.HuntCreature | client/hunt.js:22-73 | a caught creature is skipped; otherwise the reveal timer follows the lights, the capture timer follows the gate (with the new reveal) and the hit test (with the old sprite), and the creature is caught iff gate open and capture need reached |
| Hunt.HuntKeepsConsistent | client/hunt.js:22-73 | a tick keeps both timers within [0, need] and the fractions equal to the smoothed ratios of an uncaught creature |
| Hunt.CaptureRatio | client/hunt.js:55-57 | the smoothed capture fraction reaches 1 exactly when the timer reaches its need |
| Hunt.CaptureMessages | client/hunt.js:57-68 | the capture messages name exactly the creatures caught during this tick, one message per newly caught position, so no more than there are creatures |
| Hunt.UpdateHunt | client/hunt.js:17-77 | the partner light follows once; every creature takes its own step; caught ones stay as they are; the capture messages go out only with the socket open, name exactly the creatures newly caught, one per new capture |
| Hunt.CaptureSentOnce | client/hunt.js:57-68 | across two consecutive ticks no creature's capture is sent twice |
| Tank.InitTankIfNeeded | client/tank.js:6-23 | an existing tank place is kept; otherwise a place in the sprite's padded rectangle (at least 10 wide and tall) with velocity in [-30, 30) by [-20, 20), nothing else changed |
| Tank.EnterTankView | client/tank.js:25-29 | every caught creature has a tank place afterwards; no other field changes and uncaught or placed creatures are untouched |
| Tank.PickFrom | client/tank.js:35-42 | the scan from the top returns the topmost caught creature under the mouse, having placed every caught creature from the top down to and including the pick, and leaving every creature below the pick as it was |
| Tank.PickCaptured | client/tank.js:34-44 | the picked creature is hit, no creature above it is, and None means no caught creature is under the mouse; every caught creature from the top down to the pick is placed, and those below it are untouched |
| Tank.StartDrag | client/tank.js:48-56 | a drag starts iff a creature is picked; it holds that creature's id with the mouse's offset from its tank place; otherwise the drag state is unchanged |
| Tank.StopDrag | client/tank.js:58-60 | nothing is held afterwards and the creatures are unchanged |
| Tank.Held | client/tank.js:63-66 | a creature is held exactly when a drag is on and the dragged id names a caught creature, and then the held index is that creature's |
| Tank.DragTo | client/tank.js:67-85 | the dragged creature's place is the mouse less the grab offset, clamped into its tank rectangle (exactly the mouse less the offset when that lies inside), with zero velocity; nothing else about it changes |
| Tank.DragMove | client/tank.js:62-86 | a move succeeds iff a known caught creature is held; only that creature changes, moving to the mouse less the grab offset clamped into its rectangle, at rest; without a hold the world is unchanged |
| Tank.Drift | client/tank.js:102-119 | a star keeps its x and has its velocity damped to 85 %, bobbing only with a wave and time; every other kind keeps its place; a jellyfish in still water just sinks at 10 per second |
| Tank.DriftStill | client/tank.js:102-119 | with no time elapsed every kind but the star is left as it was |
| Tank.DriftAmplitudes | client/tank.js:102-119 | over one second of a peak wave each kind is pushed by its own amplitudes: jellyfish 6 and 8 less a sink of 10, ray and lion 12 and 8, seaweed 6 and 4, the rest 10 and 6; a star bobs by 2 |
| Tank.Glide | client/tank.js:121-125 | the velocity is damped to 98 %, and the place moves by the damped velocity times dt |
| Tank.Reflect | client/tank.js:135-138 | a coordinate in range keeps its velocity; one pushed back from a wall lands on it with the velocity negated; with inverted walls it lands on the high wall |
| Tank.StepTank | client/tank.js:100-138 | after a frame of free motion the place is the glided place clamped into the rectangle, and each velocity component is negated exactly when the glided place left the rectangle on that axis (a zero component stays zero) |
| Tank.TankCreature | client/tank.js:94-138 | uncaught creatures are skipped; a held creature is only placed; a free creature moves one frame and ends inside its rectangle |
| Tank.UpdateTank | client/tank.js:91-142 | every creature takes its own frame, and nothing outside the creatures changes |
| Tank.EnterTankViewRedundant | client/tank.js:92-96 | entering the tank view first changes nothing in the frame's outcome |
| Text.Trim | client/aquarium.js:33-34 | `trim` cuts only white space, leaves none at either end, and gives the empty string exactly for all-space input |
| Text.TrimIdempotent | client/aquarium.js:33-34 | trimming twice is trimming once |
| Text.Lower | client/aquarium.js:34 | same length, each letter A-Z lowered, no upper-case ASCII left |
| Text.Split | client/aquarium.js:31 | at least one piece, no piece holds the separator, and a string without it is its own only piece |
| Text.SplitJoin | client/aquarium.js:31 | joining the pieces with the separator gives back the string |
| Text.SplitHead | client/aquarium.js:31 | the first piece is the prefix before the first separator |
| Server.RoomName | server.js:43 | a missing or all-space room parameter selects "default"; any other is trimmed; the name is never empty |
| Server.GetRoom | server.js:11-19 | the named room, or an empty room with no state |
| Server.Broadcast | server.js:21-29 | the message goes exactly to the room's open clients other than the excepted one; with distinct client ids no client gets it twice |
| Server.Remove | server.js:127 | the client is gone and every other stays; distinct lists stay distinct and shrink by one |
| Server.OnConnect | server.js:41-62 | a room holding two answers `room_full` and closes, changing nothing; otherwise the client joins (the room created if new) and is welcomed with the room's captured set and tank map |
| Server.Handle | server.js:64-123 | cursor and ping go to the partner only with finite x and y; capture records the id and goes to everyone; tank move stores the place (velocity defaulting to 0) and goes to the partner; anything else is dropped; with distinct client ids no recipient gets a message twice |
| Server.OnMessage | server.js:64-124 | only a member's message reaches its room, and no other room changes |
| Server.OnClose | server.js:126-129 | the client leaves its room, and a room left empty is deleted with its state |
| Server.Step | server.js:41-129 | each event is handled by its own handler (connect, message, close), a close sends nothing, and every room keeps one or two distinct clients |
| ServerFacts.CaptureIdempotent | server.js:89-98 | recording the same capture twice is recording it once |
| ServerFacts.TankLastWriteWins | server.js:100-123 | of two tank moves of a creature, with any velocities, the room keeps the later one, and the captured set is not touched |
| ServerFacts.RelayNeverToSender | server.js:77-123 | every message handled goes only to open members of the sender's room, and only a capture can come back to its sender |
| ServerFacts.RejoinStartsFresh | server.js:126-129 | after the last client leaves, joining the same name starts from an empty state |
| ServerFacts.ThirdConnectionRejected | server.js:46-51 | a third connection to a full room is refused and the rooms are unchanged |
| Aquarium.ParseHash | client/aquarium.js:29-36 | no hash gives room "default" and view "hunt"; the view never holds upper-case letters |
| Aquarium.ParseHashRoom | client/aquarium.js:29-36 | the room is the trimmed text between `#` and the first `/`, "default" when that text is empty |
| Aquarium.ParseHashView | client/aquarium.js:29-36 | the view is the lowered, trimmed second piece, "hunt" when missing or empty |
| Aquarium.Boot | client/aquarium.js:56-85 | the page starts with the parsed room and view, no id, no drag, the registry's thirteen fresh creatures in registry order on the given canvas and images, no drag offset, and both lights at the canvas centre |
| Aquarium.Restore | client/aquarium.js:160-185 | ids in the captured set are shown caught; a tank entry the lookup resolves is shown caught at that place; the rest is unchanged |
| Aquarium.RestoreCaptured | client/aquarium.js:160-185 | with distinct ids, a creature ends caught iff it was, or it is in the captured set, or it is in the tank map |
| Aquarium.Receive | client/aquarium.js:141-237 | welcome records the id and restores the room's captures and tank places, placing them in the tank when the tank view is up; cursor moves only the partner target; captured catches a known uncaught creature; tank move catches and places a known creature; ping and `room_full` change nothing |
| Aquarium.CapturedIdempotent | client/aquarium.js:205-219 | receiving the same capture twice is receiving it once |
| Aquarium.TankMoveIdempotent | client/aquarium.js:222-236 | receiving the same tank move twice is receiving it once |
| Aquarium.OnMouseMove | client/aquarium.js:274-308 | only the mouse position, the held creature and the last report time change; the cursor is always reported when the socket is open; the held creature's move is reported only when more than 30 ms have passed since the last report |
| Aquarium.OnMouseDown | client/aquarium.js:255-268 | only the world (the drag state and the placements picking makes) changes; in the tank view without Shift a grab is tried; a click that grabs nothing pings the partner |
| Aquarium.OnMouseUp | client/aquarium.js:271 | releases the held creature and changes nothing else |
| Aquarium.OnHashChange | client/aquarium.js:43-51 | a different room changes nothing; otherwise the view becomes the hash's view, or "hunt" when it is empty, and the tank view places the caught creatures |
| Aquarium.FrameDt | client/aquarium.js:316 | the time step is the elapsed seconds capped at 0.033, non-negative when time moves forward |
| Aquarium.Frame | client/aquarium.js:315-333 | the tank view runs one tank frame after one smoothing of the partner light; the hunt view smooths it twice and runs one hunt tick |
| Aquarium.HuntFrameGap | client/aquarium.js:321-324 | in the hunt view the partner light's gap shrinks to 0.6724 of itself per frame |
| Scenarios.OctopusTankMove | server.js:100-123 | A's move of the octopus to (100, 200) reaches B alone, with zero velocity, and the room keeps that place |
| Scenarios.LateJoinerAbc | server.js:41-123 | a player joining room "abc" after a capture and a tank move is welcomed with both |
| Scenarios.AbcThirdJoin | server.js:46-51 | a third connection to "abc" is refused and the room is unchanged |
| Scenarios.LateJoinerScreen | client/aquarium.js:157-189 | that welcome shows the jellyfish caught and the octopus caught at its place, and nothing else changes |
| Scenarios.DualCaptureTwoTicks | client/hunt.js:29-68 | a large dual-light creature under both lights for two 0.65 s ticks is fully revealed after the first and caught with a tank place after the second |
| Scenarios.Jelly5IsLargeDual | client/creatures.js:19-22 | the fifth jellyfish is a large dual-light creature and starts fresh |
| Scenarios.CaptureReachesPartner | server.js:89-98 | a capture is recorded and reaches the partner, whose screen shows the creature caught; the sender's own copy changes nothing |

## Left out

- Drawing is left out because it has no effect on the game state: `renderHunt`, `renderTank`, `drawLight`, sprites, rings, hints, the HUD and the partner glow.
- Effects are left out for the same reason: bubbles, flashes, ping markers and `updateFX` in client/effects.js.
- Browser plumbing is left out: canvas resizing, image loading (the sizes are a parameter), `alert`, `beforeunload`, logging and the `keydown` shortcuts. The shortcuts only rewrite the hash, which `OnHashChange` and `Frame` read.
- The imgKey assignment loop (client/aquarium.js:112-117) is left out because it does nothing: every registry row already carries its key.
- The sockets, JSON encoding and the HTTP listener are left out.
  - The server sees an already-parsed message: unparsable, untyped, one of the four kinds, or another type.
  - A non-finite `Number(x)` is an absent coordinate.
  - `Number(vx) || 0` becomes a missing velocity defaulting to 0. An infinite velocity cannot be expressed with reals.
- Floating point is left out: reals stand for doubles, so rounding and NaN are not modelled.
- `toLowerCase` is modelled for ASCII letters only.
- `makeCreatures` (client/creatures.js:55-57) is a plain alias of `createCreatures` and is modelled by `CreateCreatures`.
- `enterTankView` at the start of `updateTank` (client/tank.js:92) is folded into each creature's frame. `Tank.EnterTankViewRedundant` shows that running it first changes nothing.
- The clamped sprite point `p2` in `updateHunt` (client/hunt.js:27) is computed but never used, so it is left out.
- The server's rooms hold an ordered list of client ids. The open sockets are an explicit set. A message or close names the room and the client id its handlers closed over.
- The game clock `tNow` appears only through the `Wave` samples, so the drift frequencies are not modelled.
- Cursor reports are not throttled in the code. Only the dragged creature's tank move is held to one per 30 ms (client/aquarium.js:279-283 against 293-306).

=== FILE: aquarium.dfy ===
/** The client glue of client/aquarium.js: the URL hash, the reactions to
    server messages, the mouse handlers and the animation frame. The DOM,
    the socket and drawing are left out; a socket's `readyState === OPEN`
    is a boolean, timestamps are inputs, and what the client sends is a
    list of messages. */
module Aquarium {
  import opened Options
  import opened MathJs
  import opened Protocol
  import opened Creatures
  import Text
  import Render
  import Hunt
  import Tank

  /** Minimum milliseconds between two `tank_move` sends of one drag. */
  const ThrottleMs: real := 30.0
  /** Longest simulated frame, in seconds. */
  const MaxDt: real := 0.033

  /** The room of an empty or missing room name. */
  const DefaultRoom: string := "default"
  /** The view of an empty or missing view name. */
  const DefaultView: string := "hunt"

  datatype Parsed = Parsed(room: string, view: string)

  /** The room of a hash's first piece: trimmed, or "default" when empty. */
  function RoomOf(piece: string): (r: string)
    ensures piece == [] ==> r == DefaultRoom
    ensures piece != [] ==> r == Text.Trim(piece)
  {
    // "default" is its own trim.
    if piece == [] then DefaultRoom else Text.Trim(piece)
  }

  /** The view of a hash's second piece: trimmed and lower-cased, or "hunt"
      when missing or empty. */
  function ViewOf(piece: Option<string>): (r: string)
    ensures piece.None? || piece.value == [] ==> r == DefaultView
    ensures piece.Some? && piece.value != [] ==> r == Text.Lower(Text.Trim(piece.value))
    ensures forall k :: 0 <= k < |r| ==> !('A' <= r[k] <= 'Z')
  {
    // "hunt" is its own trim and lower case.
    if piece.None? || piece.value == [] then DefaultView else Text.Lower(Text.Trim(piece.value))
  }

  /** `parseHash`: the text after `#` (or "default" when there is no hash)
      is split on "/"; the first piece names the room and the second the
      view, and pieces after the second are ignored. */
  function ParseHash(hash: string): (r: Parsed)
    ensures hash == [] ==> r == Parsed(DefaultRoom, DefaultView)
    ensures forall k :: 0 <= k < |r.view| ==> !('A' <= r.view[k] <= 'Z')
  {
    var raw := if hash == [] then DefaultRoom else hash[1..];
    var parts := Text.Split(raw, '/');
    DefaultRoomPlain();
    Parsed(RoomOf(parts[0]), ViewOf(if |parts| < 2 then None else Some(parts[1])))
  }

  /** "default" is one piece with nothing to trim. */
  lemma DefaultRoomPlain()
    ensures Text.Split(DefaultRoom, '/') == [DefaultRoom]
    ensures RoomOf(DefaultRoom) == DefaultRoom
  {
    var d := DefaultRoom;
    assert d == ['d', 'e', 'f', 'a', 'u', 'l', 't'];
    assert '/' !in d;
    assert !Text.IsSpace(d[0]) && !Text.IsSpace(d[6]);
    Text.TrimUntouched(d);
  }

  /** The room is the trimmed text before the first "/", and only an empty
      one falls back to "default": a room of white space is the empty name. */
  lemma {:induction false} ParseHashRoom(hash: string, i: nat)
    requires |hash| >= 1
    requires i < |hash| && '/' !in hash[1..i + 1] && (i + 1 == |hash| || hash[i + 1] == '/')
    ensures i == 0 ==> ParseHash(hash).room == DefaultRoom
    ensures i > 0 ==> ParseHash(hash).room == Text.Trim(hash[1..i + 1])
    ensures i > 0 && Text.AllSpace(hash[1..i + 1]) ==> ParseHash(hash).room == ""
  {
    var raw := hash[1..];
    assert raw[..i] == hash[1..i + 1];
    Text.SplitHead(raw, '/', i);
  }

  /** The view is the trimmed, lower-cased text between the first and the
      second "/", and "hunt" when there is no such text. */
  lemma {:induction false} ParseHashView(hash: string, i: nat, j: nat)
    requires |hash| >= 1
    requires i < |hash| && '/' !in hash[1..i + 1] && (i + 1 == |hash| || hash[i + 1] == '/')
    requires i + 1 < |hash| ==> i + 1 < j <= |hash| && '/' !in hash[i + 2..j] && (j == |hash| || hash[j] == '/')
    ensures i + 1 == |hash| ==> ParseHash(hash).view == DefaultView
    ensures i + 1 < |hash| && j == i + 2 ==> ParseHash(hash).view == DefaultView
    ensures i + 1 < |hash| && j > i + 2 ==> ParseHash(hash).view == Text.Lower(Text.Trim(hash[i + 2..j]))
  {
    var raw := hash[1..];
    assert raw[..i] == hash[1..i + 1];
    if i + 1 < |hash| {
      assert raw[i + 1..j - 1] == hash[i + 2..j];
      Text.SplitSecond(raw, '/', i, j - 1);
    } else {
      Text.SplitHead(raw, '/', i);
    }
  }

  /** The client's state. `room` is fixed when the page loads. */
  datatype Client = Client(
    room: string,
    view: string,
    myId: Option<ClientId>,
    my: Point,
    partner: Hunt.Partner,
    world: Tank.World,
    lastSend: real,
    last: real)

  /** The page as loaded: the registry, both cursors at the centre, nothing held. */
  function Boot(canvas: Canvas, images: map<string, Render.Image>, hash: string, now: real): (r: Client)
    ensures r.room == ParseHash(hash).room && r.view == ParseHash(hash).view
    ensures r.myId.None? && r.world.dragging.None? && r.lastSend == 0.0 && r.last == now
    ensures |r.world.creatures| == 13
    ensures r.world == Tank.World(canvas, images, CreateCreatures(), None, 0.0, 0.0)
    ensures forall i :: 0 <= i < 13 ==> Fresh(r.world.creatures[i])
    ensures r.partner.x == r.partner.tx == r.my.x == canvas.width / 2.0
    ensures r.partner.y == r.partner.ty == r.my.y == canvas.height / 2.0
  {
    var p := ParseHash(hash);
    var cx := canvas.width / 2.0;
    var cy := canvas.height / 2.0;
    Client(p.room, p.view, None, Point(cx, cy), Hunt.Partner(cx, cy, cx, cy),
           Tank.World(canvas, images, CreateCreatures(), None, 0.0, 0.0), 0.0, now)
  }

  /** The creature shown as caught: captured, with both fractions at 1. */
  function MarkCaught(c: Creature): (r: Creature)
    ensures r.captured && r.revealFrac == 1.0 && r.captureFrac == 1.0
    ensures r == c.(captured := true, revealFrac := 1.0, captureFrac := 1.0)
  {
    c.(captured := true, revealFrac := 1.0, captureFrac := 1.0)
  }

  /** The tank entry of the welcome that `byId` resolves to creature `i`. */
  predicate TankEntryFor(cs: seq<Creature>, tank: map<string, Protocol.Tank>, i: nat)
    requires i < |cs|
  {
    cs[i].id in tank && ById(cs, cs[i].id) == Some(i)
  }

  /** The welcome's restore of the shared state: every creature named in the
      captured set is caught, and every tank entry that `byId` resolves is
      caught and placed at the entry. */
  function Restore(cs: seq<Creature>, captured: set<string>, tank: map<string, Protocol.Tank>): (r: seq<Creature>)
    ensures |r| == |cs|
    ensures forall i :: 0 <= i < |cs| ==> SameEntry(cs[i], r[i])
    ensures forall i :: 0 <= i < |cs| && TankEntryFor(cs, tank, i) ==>
      r[i] == MarkCaught(cs[i]).(tank := Some(tank[cs[i].id]))
    ensures forall i :: 0 <= i < |cs| && !TankEntryFor(cs, tank, i) ==>
      r[i] == if cs[i].id in captured then MarkCaught(cs[i]) else cs[i]
  {
    seq(|cs|, i requires 0 <= i < |cs| =>
      var c := if cs[i].id in captured then MarkCaught(cs[i]) else cs[i];
      if TankEntryFor(cs, tank, i) then MarkCaught(c).(tank := Some(tank[cs[i].id])) else c)
  }

  /** With the registry's distinct ids, a creature ends the welcome captured
      exactly when it was already, or the server lists it as captured, or the
      server's tank holds it; ids the registry does not know change nothing. */
  lemma RestoreCaptured(cs: seq<Creature>, captured: set<string>, tank: map<string, Protocol.Tank>)
    requires DistinctIds(cs)
    ensures var r := Restore(cs, captured, tank);
      forall i :: 0 <= i < |cs| ==>
        && (r[i].captured <==> cs[i].captured || cs[i].id in captured || cs[i].id in tank)
        && (cs[i].id in tank ==> r[i].tank == Some(tank[cs[i].id]))
        && (cs[i].id !in captured && cs[i].id !in tank ==> r[i] == cs[i])
  {
    forall i | 0 <= i < |cs| ensures TankEntryFor(cs, tank, i) <==> cs[i].id in tank {
      ByIdDistinct(cs, i);
    }
  }

  /** The socket message handler. A welcome records the id and restores the
      room's state (placing captured creatures when the tank view is up); a
      cursor moves only the partner's target; a captured message catches a
      known creature not yet caught; a tank move catches and places a known
      creature. Pings and `room_full` change nothing but the screen.
      `draws[i]` feeds a tank placement of creature `i`. */
  function Receive(c: Client, m: ServerMsg, draws: seq<Draw>): (r: Client)
    requires |draws| == |c.world.creatures|
    ensures |r.world.creatures| == |c.world.creatures|
    ensures r.room == c.room && r.view == c.view && r.my == c.my && r.lastSend == c.lastSend && r.last == c.last
    ensures r.world == c.world.(creatures := r.world.creatures)
    ensures !m.Welcome? ==> r.myId == c.myId
    ensures m.Welcome? ==> r.myId == Some(m.id)
    ensures m.Welcome? ==>
      var restored := Restore(c.world.creatures, m.captured, m.tank);
      r.world.creatures == if c.view == "tank"
                           then Tank.EnterTankView(c.world.canvas, c.world.images, draws, restored)
                           else restored
    ensures !m.CursorRelay? ==> r.partner == c.partner
    ensures m.CursorRelay? ==> r.partner == c.partner.(tx := m.x, ty := m.y) && r.world == c.world
    ensures m.RoomFull? || m.PingRelay? ==> r == c
    ensures m.Captured? ==>
      var k := ById(c.world.creatures, m.creatureId);
      if k.Some? && !c.world.creatures[k.value].captured then
        r.world.creatures == c.world.creatures[k.value := MarkCaught(c.world.creatures[k.value])]
      else r == c
    ensures m.TankMoveRelay? ==>
      var k := ById(c.world.creatures, m.creatureId);
      if k.Some? then
        r.world.creatures == c.world.creatures[k.value :=
          MarkCaught(c.world.creatures[k.value]).(tank := Some(Protocol.Tank(m.x, m.y, m.vx, m.vy)))]
      else r == c
  {
    var cs := c.world.creatures;
    match m
    case RoomFull => c
    case PingRelay(_, _) => c
    case CursorRelay(x, y) => c.(partner := c.partner.(tx := x, ty := y))
    case Welcome(id, captured, tank) =>
      var restored := Restore(cs, captured, tank);
      var placed := if c.view == "tank" then Tank.EnterTankView(c.world.canvas, c.world.images, draws, restored)
                    else restored;
      c.(myId := Some(id), world := c.world.(creatures := placed))
    case Captured(cid) =>
      var k := ById(cs, cid);
      if k.None? || cs[k.value].captured then c
      else c.(world := c.world.(creatures := cs[k.value := MarkCaught(cs[k.value])]))
    case TankMoveRelay(cid, x, y, vx, vy) =>
      var k := ById(cs, cid);
      if k.None? then c
      else c.(world := c.world.(creatures := cs[k.value := MarkCaught(cs[k.value]).(tank := Some(Protocol.Tank(x, y, vx, vy)))]))
  }

  /** The lookup depends on the ids alone. */
  lemma ByIdSameIds(a: seq<Creature>, b: seq<Creature>, id: string)
    requires |a| == |b| && forall j :: 0 <= j < |a| ==> a[j].id == b[j].id
    ensures ById(a, id) == ById(b, id)
  {
  }

  /** A repeated `captured` message changes nothing the first did not. */
  lemma CapturedIdempotent(c: Client, cid: string, draws: seq<Draw>)
    requires |draws| == |c.world.creatures|
    ensures var once := Receive(c, Captured(cid), draws);
      Receive(once, Captured(cid), draws) == once
  {
    var cs := c.world.creatures;
    var once := Receive(c, Captured(cid), draws);
    assert ById(once.world.creatures, cid) == ById(cs, cid) by {
      assert forall j :: 0 <= j < |cs| ==> once.world.creatures[j].id == cs[j].id;
      ByIdSameIds(cs, once.world.creatures, cid);
    }
  }

  /** A repeated `tank_move` message changes nothing the first did not. */
  lemma TankMoveIdempotent(c: Client, cid: string, x: real, y: real, vx: real, vy: real, draws: seq<Draw>)
    requires |draws| == |c.world.creatures|
    ensures var once := Receive(c, TankMoveRelay(cid, x, y, vx, vy), draws);
      Receive(once, TankMoveRelay(cid, x, y, vx, vy), draws) == once
  {
    var cs := c.world.creatures;
    var k := ById(cs, cid);
    if k.Some? {
      var once := Receive(c, TankMoveRelay(cid, x, y, vx, vy), draws);
      assert ById(once.world.creatures, cid) == k by {
        assert forall j :: 0 <= j < |cs| ==> once.world.creatures[j].id == cs[j].id;
        ByIdSameIds(cs, once.world.creatures, cid);
      }
    }
  }

  /** Whether a drag may report its position now: the socket is open and more
      than 30 ms have passed since the last report. */
  predicate MaySend(socketOpen: bool, now: real, lastSend: real) {
    socketOpen && now - lastSend > ThrottleMs
  }

  /** The mouse-move handler: record the mouse position and send it to the partner;
      in the tank view, move the held creature and report its new position,
      at most once per 30 ms. */
  function OnMouseMove(c: Client, x: real, y: real, now: real, socketOpen: bool, draws: seq<Draw>): (r: (Client, seq<ClientMsg>))
    requires |draws| == |c.world.creatures|
    ensures r.0.my == Point(x, y)
    ensures r.0 == c.(my := Point(x, y), world := r.0.world, lastSend := r.0.lastSend)
    ensures |r.0.world.creatures| == |c.world.creatures|
    ensures |r.1| >= 1 <==> socketOpen
    ensures socketOpen ==> r.1[0] == CursorMsg(x, y)
    ensures var moved := c.view == "tank" && !Tank.NoDrag(c.world) && Tank.Held(c.world).Some?;
      && (moved ==> r.0.world == Tank.DragMove(c.world, x, y, draws).0)
      && (!moved ==> r.0.world == c.world)
      && (|r.1| == 2 <==> moved && MaySend(socketOpen, now, c.lastSend))
      && (r.0.lastSend != c.lastSend ==> |r.1| == 2 && r.0.lastSend == now)
      && (|r.1| == 2 ==>
            && r.0.lastSend == now
            && var t := r.0.world.creatures[Tank.Held(c.world).value];
               r.1[1] == TankMoveMsg(t.id, t.tank.value.x, t.tank.value.y, 0.0, 0.0))
    ensures |r.1| <= 2
  {
    var c1 := c.(my := Point(x, y));
    var cursor := if socketOpen then [CursorMsg(x, y)] else [];
    if c.view != "tank" || Tank.NoDrag(c.world) then (c1, cursor)
    else
      var (w, moved) := Tank.DragMove(c.world, x, y, draws);
      if !moved then (c1, cursor)
      else
        var k := Tank.Held(c.world).value;
        var t := w.creatures[k];
        if MaySend(socketOpen, now, c.lastSend) then
          (c1.(world := w, lastSend := now),
           cursor + [TankMoveMsg(t.id, t.tank.value.x, t.tank.value.y, 0.0, 0.0)])
        else (c1.(world := w), cursor)
  }

  /** The mouse-down handler: in the tank view without Shift, try to grab a
      creature; a click that grabs nothing pings, sent to the partner when
      the socket is open. */
  function OnMouseDown(c: Client, x: real, y: real, shift: bool, socketOpen: bool, draws: seq<Draw>): (r: (Client, seq<ClientMsg>))
    requires |draws| == |c.world.creatures|
    ensures |r.0.world.creatures| == |c.world.creatures|
    ensures r.0 == c.(world := r.0.world)
    ensures var tries := c.view == "tank" && !shift;
      && (tries ==> r.0.world == Tank.StartDrag(c.world, x, y, draws).0)
      && (!tries ==> r.0 == c)
      && (r.1 != [] <==> socketOpen && !(tries && Tank.StartDrag(c.world, x, y, draws).1))
    ensures r.1 != [] ==> r.1 == [PingMsg(x, y)]
  {
    var ping := if socketOpen then [PingMsg(x, y)] else [];
    if c.view == "tank" && !shift then
      var (w, ok) := Tank.StartDrag(c.world, x, y, draws);
      if ok then (c.(world := w), []) else (c.(world := w), ping)
    else (c, ping)
  }

  /** The mouse-up handler: release the held creature. */
  function OnMouseUp(c: Client): (r: Client)
    ensures r.world.dragging.None?
    ensures r == c.(world := r.world) && r.world == c.world.(dragging := None)
  {
    c.(world := Tank.StopDrag(c.world))
  }

  /** The hash-change handler: a different room is refused (the page must be
      reloaded); otherwise the view switches, "hunt" when it is empty, and
      entering the tank view places the captured creatures. */
  function OnHashChange(c: Client, hash: string, draws: seq<Draw>): (r: Client)
    requires |draws| == |c.world.creatures|
    ensures ParseHash(hash).room != c.room ==> r == c
    ensures ParseHash(hash).room == c.room ==>
      && r.view != []
      && (ParseHash(hash).view != [] ==> r.view == ParseHash(hash).view)
      && (ParseHash(hash).view == [] ==> r.view == DefaultView)
      && (r.view == "tank" ==> r.world.creatures == Tank.EnterTankView(c.world.canvas, c.world.images, draws, c.world.creatures))
      && (r.view != "tank" ==> r.world == c.world)
      && r == c.(view := r.view, world := r.world)
  {
    var p := ParseHash(hash);
    if p.room != c.room then c
    else
      var view := if p.view == [] then DefaultView else p.view;
      var w := if view == "tank"
               then c.world.(creatures := Tank.EnterTankView(c.world.canvas, c.world.images, draws, c.world.creatures))
               else c.world;
      c.(view := view, world := w)
  }

  /** The frame's time step in seconds: the elapsed milliseconds, capped at 33 ms. */
  function FrameDt(now: real, last: real): (r: real)
    ensures r <= MaxDt
    ensures r == MaxDt || r == (now - last) / 1000.0
    ensures (now - last) / 1000.0 <= MaxDt ==> r == (now - last) / 1000.0
    ensures last <= now ==> 0.0 <= r
  {
    Min(MaxDt, (now - last) / 1000.0)
  }

  /** One animation frame: step the partner light toward its target, reread
      the view from the hash (without the "hunt" default of the hash-change
      handler), then run the tank or the hunt. The hunt steps the partner
      light a second time. */
  function Frame(c: Client, now: real, hash: string, socketOpen: bool,
                 draws: seq<Draw>, waves: seq<Tank.Wave>): (r: (Client, seq<ClientMsg>))
    requires |draws| == |c.world.creatures| && |waves| == |c.world.creatures|
    ensures r.0.last == now && r.0.view == ParseHash(hash).view
    ensures r.0.room == c.room && r.0.my == c.my && r.0.myId == c.myId && r.0.lastSend == c.lastSend
    ensures |r.0.world.creatures| == |c.world.creatures|
    ensures r.0.view == "tank" ==>
      && r.0.partner == Hunt.FollowPartner(c.partner)
      && r.0.world == Tank.UpdateTank(c.world, draws, waves, FrameDt(now, c.last))
      && r.1 == []
    ensures r.0.view != "tank" ==>
      var h := Hunt.UpdateHunt(c.world.canvas, c.world.images, c.my, Hunt.FollowPartner(c.partner),
                               socketOpen, draws, FrameDt(now, c.last), c.world.creatures);
      && r.0.partner == Hunt.FollowPartner(Hunt.FollowPartner(c.partner))
      && r.0.world == c.world.(creatures := h.creatures)
      && r.1 == h.sent
  {
    var dt := FrameDt(now, c.last);
    var p := Hunt.FollowPartner(c.partner);
    var view := ParseHash(hash).view;
    var c1 := c.(last := now, partner := p, view := view);
    if view == "tank" then (c1.(world := Tank.UpdateTank(c.world, draws, waves, dt)), [])
    else
      var h := Hunt.UpdateHunt(c.world.canvas, c.world.images, c.my, p, socketOpen, draws, dt, c.world.creatures);
      (c1.(partner := h.partner, world := c.world.(creatures := h.creatures)), h.sent)
  }

  /** Two smoothing steps close all but 0.82 squared (67.24 %) of the gap
      between the partner light and its target. */
  lemma HuntFrameGap(p: Hunt.Partner)
    ensures var q := Hunt.FollowPartner(Hunt.FollowPartner(p));
      q.x - q.tx == 0.6724 * (p.x - p.tx) && q.y - q.ty == 0.6724 * (p.y - p.ty)
  {
  }
}

=== FILE: creatures.dfy ===
/** The creature registry and the size-class configuration of
    client/creatures.js. */
module Creatures {
  import opened Options
  import opened MathJs
  import opened Protocol

  datatype Kind = Jelly | Seahorse | Star | Urchin | Seaweed | Octo | Ray | Lion
  datatype Size = Small | Large

  /** The drawing surface's size in pixels. */
  datatype Canvas = Canvas(width: real, height: real)

  /** One `Math.random()` result. */
  type Unit = u: real | 0.0 <= u < 1.0

  /** The four `Math.random()` results a tank placement consumes, in call order. */
  datatype Draw = Draw(rx: Unit, ry: Unit, rvx: Unit, rvy: Unit)

  // The `cfg` table.
  const LightR: real := 210.0
  const RevealSmall: real := 0.35
  const RevealLarge: real := 0.65
  const CaptureSmall: real := 0.55
  const CaptureLarge: real := 0.75
  const HitSmall: real := 70.0
  const HitLarge: real := 110.0
  const ScaleSmall: real := 0.25
  const ScaleLarge: real := 0.55

  /** Creatures that need both players' lights at once. */
  const NeedDual: set<string> := {"mantaRay", "jelly5"}

  /** Margin of the capture-time tank placement. */
  const TankMargin: real := 90.0

  datatype Creature = Creature(
    id: string, name: string, kind: Kind, size: Size,
    nx: real, ny: real, seed: real, imgKey: string,
    captured: bool,
    revealT: real, captureT: real,   // seconds of accumulated light
    revealFrac: real, captureFrac: real,  // eased fractions of the timers
    tank: Option<Tank>)

  /** The state `mkCreature` starts every creature in. */
  predicate Fresh(c: Creature) {
    && !c.captured
    && c.revealT == 0.0 && c.captureT == 0.0
    && c.revealFrac == 0.0 && c.captureFrac == 0.0
    && c.tank == None
  }

  /** `c` and `d` are the same registry entry (only the dynamic fields may differ). */
  predicate SameEntry(c: Creature, d: Creature) {
    && c.id == d.id && c.name == d.name && c.kind == d.kind && c.size == d.size
    && c.nx == d.nx && c.ny == d.ny && c.seed == d.seed && c.imgKey == d.imgKey
  }

  function MkCreature(id: string, name: string, kind: Kind, size: Size,
                      nx: real, ny: real, seed: real, imgKey: string): (c: Creature)
    ensures Fresh(c)
    ensures c.id == id && c.kind == kind && c.size == size && c.nx == nx && c.ny == ny
  {
    Creature(id, name, kind, size, nx, ny, seed, imgKey, false, 0.0, 0.0, 0.0, 0.0, None)
  }

  predicate DistinctIds(cs: seq<Creature>) {
    forall i, j :: 0 <= i < j < |cs| ==> cs[i].id != cs[j].id
  }

  /** Every registry anchor is a normalised coordinate. */
  predicate Anchored(c: Creature) {
    0.0 <= c.nx <= 1.0 && 0.0 <= c.ny <= 1.0
  }

  /** One row of the registry: the arguments `createCreatures` passes to
      `mkCreature`. */
  datatype Entry = Entry(id: string, name: string, kind: Kind, size: Size,
                         nx: real, ny: real, seed: real, imgKey: string)

  const Registry: seq<Entry> := [
    Entry("jelly1",    "Jellyfish 1", Jelly,    Small, 0.18, 0.20, 0.3, "img1"),
    Entry("seahorse1", "Seahorse 1",  Seahorse, Small, 0.30, 0.46, 1.1, "img2"),
    Entry("star1",     "Starfish",    Star,     Small, 0.52, 0.88, 0.9, "img3"),
    Entry("seahorse2", "Seahorse 2",  Seahorse, Small, 0.24, 0.62, 2.4, "img4"),
    Entry("urchin",    "Sea Urchin",  Urchin,   Small, 0.70, 0.84, 1.8, "img5"),
    Entry("seaweed",   "Seaweed",     Seaweed,  Large, 0.86, 0.72, 1.4, "img6"),
    Entry("octopus",   "Octopus",     Octo,     Large, 0.18, 0.82, 1.6, "img7"),
    Entry("mantaRay",  "Manta Ray",   Ray,      Large, 0.74, 0.56, 2.2, "img8"),
    Entry("lionFish",  "Lion Fish",   Lion,     Large, 0.78, 0.36, 1.9, "img9"),
    Entry("jelly2",    "Jellyfish 2", Jelly,    Small, 0.52, 0.18, 0.7, "img10"),
    Entry("jelly3",    "Jellyfish 3", Jelly,    Small, 0.83, 0.24, 2.1, "img11"),
    Entry("jelly4",    "Jellyfish 4", Jelly,    Small, 0.40, 0.34, 2.8, "img12"),
    Entry("jelly5",    "Jellyfish 5", Jelly,    Large, 0.56, 0.78, 3.7, "img13")
  ]

  /** `createCreatures`: one fresh creature per registry row, in order. */
  function CreateCreatures(): (r: seq<Creature>)
    ensures |r| == |Registry| == 13
    ensures forall i :: 0 <= i < |r| ==> Fresh(r[i])
    ensures forall i :: 0 <= i < |r| ==>
      var e := Registry[i];
      r[i] == Creature(e.id, e.name, e.kind, e.size, e.nx, e.ny, e.seed, e.imgKey, false, 0.0, 0.0, 0.0, 0.0, None)
  {
    seq(|Registry|, i requires 0 <= i < |Registry| =>
      var e := Registry[i];
      MkCreature(e.id, e.name, e.kind, e.size, e.nx, e.ny, e.seed, e.imgKey))
  }

  lemma RegistryIdsDistinct()
    ensures forall i, j :: 0 <= i < j < |Registry| ==> Registry[i].id != Registry[j].id
  {
  }

  lemma RegistryAnchorsNormalised()
    ensures forall i :: 0 <= i < |Registry| ==>
      0.0 <= Registry[i].nx <= 1.0 && 0.0 <= Registry[i].ny <= 1.0
  {
  }

  /** The registry has thirteen creatures, all anchored on the canvas, with
      pairwise distinct ids, and both dual-light ids name registered creatures. */
  lemma RegistryWellFormed()
    ensures |CreateCreatures()| == 13
    ensures DistinctIds(CreateCreatures())
    ensures forall i :: 0 <= i < |CreateCreatures()| ==> Anchored(CreateCreatures()[i])
    ensures forall id :: id in NeedDual ==>
      exists i :: 0 <= i < |CreateCreatures()| && CreateCreatures()[i].id == id
  {
    var r := CreateCreatures();
    RegistryIdsDistinct();
    RegistryAnchorsNormalised();
    assert r[7].id == "mantaRay" && r[12].id == "jelly5";
  }

  /** The hunt-view anchor `(nx * width, ny * height)`. */
  function CreaturePos(canvas: Canvas, c: Creature): Point {
    Point(c.nx * canvas.width, c.ny * canvas.height)
  }

  /** A registry anchor always lies on the canvas. */
  lemma PosOnCanvas(canvas: Canvas, c: Creature)
    requires Anchored(c) && 0.0 <= canvas.width && 0.0 <= canvas.height
    ensures 0.0 <= CreaturePos(canvas, c).x <= canvas.width
    ensures 0.0 <= CreaturePos(canvas, c).y <= canvas.height
  {
    MulNonneg(c.nx, canvas.width);
    MulNonneg(1.0 - c.nx, canvas.width);
    MulNonneg(c.ny, canvas.height);
    MulNonneg(1.0 - c.ny, canvas.height);
    assert Mul(1.0 - c.nx, canvas.width) == canvas.width - c.nx * canvas.width;
    assert Mul(1.0 - c.ny, canvas.height) == canvas.height - c.ny * canvas.height;
  }

  /** Size-class floor of the capture hit radius. */
  function CreatureHitR(c: Creature): (r: real)
    ensures r == (if c.size == Large then HitLarge else HitSmall)
    ensures HitSmall <= r <= HitLarge
  {
    if c.size == Large then HitLarge else HitSmall
  }

  /** Seconds of light needed for a full reveal; positive, so the ratio is defined. */
  function CreatureRevealNeed(c: Creature): (r: real)
    ensures 0.0 < r
    ensures r == (if c.size == Large then RevealLarge else RevealSmall)
  {
    if c.size == Large then RevealLarge else RevealSmall
  }

  /** Seconds of hit needed for a capture; positive, so the ratio is defined. */
  function CreatureCaptureNeed(c: Creature): (r: real)
    ensures 0.0 < r
    ensures r == (if c.size == Large then CaptureLarge else CaptureSmall)
  {
    if c.size == Large then CaptureLarge else CaptureSmall
  }

  /** The random placement `initTank` makes: inside the 90-pixel margin
      (spanning at least 10 pixels), with a drift velocity in
      [-30, 30) x [-20, 20). */
  function MarginPlacement(canvas: Canvas, d: Draw): (t: Tank)
    ensures TankMargin <= t.x < TankMargin + Max(10.0, canvas.width - 2.0 * TankMargin)
    ensures TankMargin <= t.y < TankMargin + Max(10.0, canvas.height - 2.0 * TankMargin)
    ensures -30.0 <= t.vx < 30.0 && -20.0 <= t.vy < 20.0
  {
    var spanX := Max(10.0, canvas.width - 2.0 * TankMargin);
    var spanY := Max(10.0, canvas.height - 2.0 * TankMargin);
    ScaleUnit(d.rx, spanX);
    ScaleUnit(d.ry, spanY);
    Tank(TankMargin + Mul(d.rx, spanX), TankMargin + Mul(d.ry, spanY),
         (d.rvx - 0.5) * 60.0, (d.rvy - 0.5) * 40.0)
  }

  /** `initTank`: a creature without a tank record gets the margin placement;
      one that has a record is left alone. */
  function InitTank(canvas: Canvas, c: Creature, d: Draw): (r: Creature)
    ensures c.tank.Some? ==> r == c
    ensures r.tank.Some? && r == c.(tank := r.tank)
    ensures c.tank.None? ==>
      && TankMargin <= r.tank.value.x < TankMargin + Max(10.0, canvas.width - 2.0 * TankMargin)
      && TankMargin <= r.tank.value.y < TankMargin + Max(10.0, canvas.height - 2.0 * TankMargin)
      && -30.0 <= r.tank.value.vx < 30.0 && -20.0 <= r.tank.value.vy < 20.0
  {
    if c.tank.Some? then c else c.(tank := Some(MarginPlacement(canvas, d)))
  }

  /** `byId.get(id)`: the map is built from the registry in order, so a later
      creature with the same id wins; the result is the last index carrying `id`. */
  function ById(cs: seq<Creature>, id: string): (r: Option<nat>)
    ensures r.Some? ==> r.value < |cs| && cs[r.value].id == id
    ensures r.Some? ==> forall j :: r.value < j < |cs| ==> cs[j].id != id
    ensures r.None? <==> forall j :: 0 <= j < |cs| ==> cs[j].id != id
    decreases |cs|
  {
    if |cs| == 0 then None
    else if cs[|cs| - 1].id == id then Some(|cs| - 1)
    else ById(cs[..|cs| - 1], id)
  }

  /** With distinct ids the lookup finds the one creature carrying the id. */
  lemma ByIdDistinct(cs: seq<Creature>, i: nat)
    requires DistinctIds(cs) && i < |cs|
    ensures ById(cs, cs[i].id) == Some(i)
  {
  }
}

=== FILE: hunt.dfy ===
/** The reveal/capture engine of client/hunt.js (`updateHunt`). */
module Hunt {
  import opened Options
  import opened MathJs
  import opened Protocol
  import opened Creatures
  import Render

  /** The partner's light: where it is drawn (`x`, `y`) and the last position
      the partner reported (`tx`, `ty`). */
  datatype Partner = Partner(x: real, y: real, tx: real, ty: real)

  function PartnerPoint(p: Partner): Point {
    Point(p.x, p.y)
  }

  /** One smoothing step of the partner light: it covers 18 % of the remaining
      gap, so the gap shrinks to 82 % and the light never overshoots. */
  function FollowPartner(p: Partner): (r: Partner)
    ensures r.tx == p.tx && r.ty == p.ty
    ensures r.x - r.tx == 0.82 * (p.x - p.tx) && r.y - r.ty == 0.82 * (p.y - p.ty)
    ensures Min(p.x, p.tx) <= r.x <= Max(p.x, p.tx)
    ensures Min(p.y, p.ty) <= r.y <= Max(p.y, p.ty)
  {
    p.(x := p.x + (p.tx - p.x) * 0.18, y := p.y + (p.ty - p.y) * 0.18)
  }

  /** The rule for both reveal and capture: dual-light creatures need both
      lights, the others either. */
  predicate Satisfied(dual: bool, mine: bool, partners: bool) {
    if dual then mine && partners else mine || partners
  }

  predicate Dual(c: Creature) {
    c.id in NeedDual
  }

  /** `inLight`: the light is within `lightR` of the creature's unclamped anchor. */
  predicate Lit(canvas: Canvas, c: Creature, light: Point) {
    Within(light, CreaturePos(canvas, c), LightR)
  }

  predicate RevealOk(canvas: Canvas, c: Creature, my: Point, partner: Point) {
    Satisfied(Dual(c), Lit(canvas, c, my), Lit(canvas, c, partner))
  }

  /** A light is within the sprite's hit radius (computed from the creature
      as it was before this tick) of the unclamped anchor. */
  predicate Hit(canvas: Canvas, images: map<string, Render.Image>, c: Creature, light: Point) {
    Within(CreaturePos(canvas, c), light, Render.SpriteMetrics(images, c).hitR)
  }

  predicate CaptureOk(canvas: Canvas, images: map<string, Render.Image>, c: Creature,
                      my: Point, partner: Point) {
    Satisfied(Dual(c), Hit(canvas, images, c, my), Hit(canvas, images, c, partner))
  }

  /** The reveal gate capture progress waits for. */
  predicate Gate(c: Creature) {
    Render.Smooth(c.revealT / CreatureRevealNeed(c)) > 0.7
  }

  /** Both timers within [0, need]. */
  predicate TimersInRange(c: Creature) {
    && 0.0 <= c.revealT <= CreatureRevealNeed(c)
    && 0.0 <= c.captureT <= CreatureCaptureNeed(c)
  }

  /** The eased fractions of an uncaptured creature are `smooth` of its timer
      ratios. */
  predicate FractionsMatch(c: Creature) {
    && c.revealFrac == Render.Smooth(c.revealT / CreatureRevealNeed(c))
    && c.captureFrac == Render.Smooth(c.captureT / CreatureCaptureNeed(c))
  }

  /** What every creature satisfies between ticks. */
  predicate Consistent(c: Creature) {
    TimersInRange(c) && (!c.captured ==> FractionsMatch(c))
  }

  /** The reveal timer rule: grow by `dt` while lit, capped at `need`; decay
      at 0.9 `dt` otherwise, floored at 0. */
  function NextReveal(need: real, t: real, lit: bool, dt: real): (r: real)
    ensures 0.0 <= t && 0.0 <= dt && r > t ==> lit
    ensures lit ==> r == Min(need, t + dt)
    ensures !lit ==> r == Max(0.0, t - dt * 0.9)
    ensures lit && 0.0 <= dt && t <= need ==> t <= r
    ensures r <= need || !lit
    ensures 0.0 <= r || lit
    ensures 0.0 <= t <= need && 0.0 <= dt ==> 0.0 <= r <= need
  {
    if lit then Min(need, t + dt) else Max(0.0, t - dt * 0.9)
  }

  /** The capture timer rule: with the gate open it grows by `dt` on a hit,
      capped at `need`, and decays at 1.25 `dt` otherwise; with the gate
      closed it decays at 1.5 `dt`. Decay is floored at 0. */
  function NextCapture(need: real, t: real, gate: bool, hit: bool, dt: real): (r: real)
    ensures 0.0 <= t && 0.0 <= dt && r > t ==> gate && hit
    ensures !gate ==> r == Max(0.0, t - dt * 1.5)
    ensures gate && hit ==> r == Min(need, t + dt)
    ensures gate && !hit ==> r == Max(0.0, t - dt * 1.25)
    ensures gate && hit && 0.0 <= dt && t <= need ==> t <= r
    ensures 0.0 <= t <= need && 0.0 <= dt ==> 0.0 <= r <= need
  {
    if gate then
      if hit then Min(need, t + dt) else Max(0.0, t - dt * 1.25)
    else Max(0.0, t - dt * 1.5)
  }

  /** The end of a creature's tick, once both timers are stepped: with the
      gate open and the capture timer at its need the creature is caught
      (both fractions at 1) and placed in the tank; otherwise both fractions
      follow the timers. */
  function Settle(canvas: Canvas, d: Draw, c: Creature): (r: Creature)
    requires !c.captured
    ensures SameEntry(c, r) && r.revealT == c.revealT && r.captureT == c.captureT
    ensures r.captured <==> Gate(c) && c.captureT >= CreatureCaptureNeed(c)
    ensures r.captured ==>
      && r.revealFrac == 1.0 && r.captureFrac == 1.0
      && r.tank == (if c.tank.Some? then c.tank else Some(MarginPlacement(canvas, d)))
    ensures !r.captured ==> FractionsMatch(r) && r.tank == c.tank
  {
    var shown := Render.Smooth(c.revealT / CreatureRevealNeed(c));
    var caught := Render.Smooth(c.captureT / CreatureCaptureNeed(c));
    CaptureRatio(c.captureT, CreatureCaptureNeed(c));
    if shown > 0.7 && caught >= 1.0 then
      InitTank(canvas, c.(captured := true, revealFrac := 1.0, captureFrac := 1.0), d)
    else
      c.(revealFrac := shown, captureFrac := caught)
  }

  /** One creature's step of `updateHunt`: the reveal timer follows the
      lights, then the capture timer follows the gate and the hit test. */
  function HuntCreature(canvas: Canvas, images: map<string, Render.Image>, my: Point, partner: Point,
                        d: Draw, dt: real, c: Creature): (r: Creature)
    ensures c.captured ==> r == c
    ensures SameEntry(c, r)
    ensures !c.captured ==>
      r.revealT == NextReveal(CreatureRevealNeed(c), c.revealT, RevealOk(canvas, c, my, partner), dt)
    ensures !c.captured ==>
      r.captureT == NextCapture(CreatureCaptureNeed(c), c.captureT, Gate(r),
                                CaptureOk(canvas, images, c, my, partner), dt)
    ensures !c.captured ==> (r.captured <==> Gate(r) && r.captureT >= CreatureCaptureNeed(c))
    ensures !c.captured && r.captured ==>
      && r.revealFrac == 1.0 && r.captureFrac == 1.0
      && r.tank == (if c.tank.Some? then c.tank else Some(MarginPlacement(canvas, d)))
    ensures !r.captured ==> FractionsMatch(r) && r.tank == c.tank
  {
    if c.captured then c
    else
      var c1 := c.(revealT := NextReveal(CreatureRevealNeed(c), c.revealT, RevealOk(canvas, c, my, partner), dt));
      var c2 := c1.(captureT := NextCapture(CreatureCaptureNeed(c), c.captureT, Gate(c1),
                                            CaptureOk(canvas, images, c, my, partner), dt));
      Settle(canvas, d, c2)
  }

  /** A tick keeps every creature's timers in range and its fractions tied to
      them, for any non-negative `dt`. */
  lemma HuntKeepsConsistent(canvas: Canvas, images: map<string, Render.Image>, my: Point, partner: Point,
                            d: Draw, dt: real, c: Creature)
    requires Consistent(c) && 0.0 <= dt
    ensures Consistent(HuntCreature(canvas, images, my, partner, d, dt, c))
  {
    var r := HuntCreature(canvas, images, my, partner, d, dt, c);
    if !c.captured {
      StepKeepsConsistent(c, r, RevealOk(canvas, c, my, partner), Gate(r),
                          CaptureOk(canvas, images, c, my, partner), dt);
    }
  }

  /** The timer rules keep the timers in [0, need], whatever the lights did. */
  lemma StepKeepsConsistent(c: Creature, r: Creature, lit: bool, gate: bool, hit: bool, dt: real)
    requires Consistent(c) && !c.captured && 0.0 <= dt && SameEntry(c, r)
    requires r.revealT == NextReveal(CreatureRevealNeed(c), c.revealT, lit, dt)
    requires r.captureT == NextCapture(CreatureCaptureNeed(c), c.captureT, gate, hit, dt)
    requires !r.captured ==> FractionsMatch(r)
    ensures Consistent(r)
  {
    assert CreatureRevealNeed(r) == CreatureRevealNeed(c) && CreatureCaptureNeed(r) == CreatureCaptureNeed(c);
  }

  /** `smooth(t / need)` reaches 1 exactly when `t` reaches `need`. */
  lemma CaptureRatio(t: real, need: real)
    requires 0.0 < need
    ensures Render.Smooth(t / need) >= 1.0 <==> t >= need
  {
    if t >= need {
      assert t / need >= 1.0;
    } else {
      assert t / need < 1.0;
    }
  }

  /** The `capture` messages of one tick, in creature order: one for every
      creature that was not captured before and is captured after. */
  function CaptureMessages(before: seq<Creature>, after: seq<Creature>): (r: seq<ClientMsg>)
    requires |before| == |after|
    ensures forall msg :: msg in r <==>
      exists i :: 0 <= i < |before| && !before[i].captured && after[i].captured && msg == CaptureMsg(before[i].id)
    ensures |r| == |NewCaptures(before, after)|
    ensures |r| <= |before|
    decreases |before|
  {
    if |before| == 0 then
      assert NewCaptures(before, after) == {};
      []
    else
      var rest := CaptureMessages(before[1..], after[1..]);
      assert forall i :: 1 <= i < |before| ==> before[i] == before[1..][i - 1] && after[i] == after[1..][i - 1];
      NewCapturesCount(before, after);
      (if !before[0].captured && after[0].captured then [CaptureMsg(before[0].id)] else []) + rest
  }

  /** The positions whose creature is captured in `after` but was not in `before`. */
  ghost function NewCaptures(before: seq<Creature>, after: seq<Creature>): set<int>
    requires |before| == |after|
  {
    set i | 0 <= i < |before| && !before[i].captured && after[i].captured
  }

  /** Every position moved one place up. */
  ghost function Shift(s: set<int>): set<int>
  {
    set i | i in s :: i + 1
  }

  lemma {:induction false} ShiftCard(s: set<int>)
    ensures |Shift(s)| == |s|
    decreases |s|
  {
    if s == {} {
      assert Shift(s) == {};
    } else {
      if forall y :: y !in s {
        assert false;
      }
      var x :| x in s;
      var s' := s - {x};
      ShiftCard(s');
      forall y | y in Shift(s)
        ensures y in Shift(s') + {x + 1}
      {
        var i :| i in s && y == i + 1;
        if i != x {
          assert i in s';
        }
      }
      forall y | y in Shift(s') + {x + 1}
        ensures y in Shift(s)
      {
        if y != x + 1 {
          var i :| i in s' && y == i + 1;
          assert i in s;
        }
      }
      assert Shift(s) == Shift(s') + {x + 1};
    }
  }

  /** The new captures of a non-empty tick: perhaps the first position, then
      the new captures of the rest, shifted by one. */
  lemma NewCapturesCount(before: seq<Creature>, after: seq<Creature>)
    requires |before| == |after| > 0
    ensures |NewCaptures(before, after)| ==
      (if !before[0].captured && after[0].captured then 1 else 0) + |NewCaptures(before[1..], after[1..])|
  {
    var tail := NewCaptures(before[1..], after[1..]);
    var head: set<int> := if !before[0].captured && after[0].captured then {0} else {};
    assert forall i :: 1 <= i < |before| ==> before[i] == before[1..][i - 1] && after[i] == after[1..][i - 1];
    forall i | i in NewCaptures(before, after)
      ensures i in head + Shift(tail)
    {
      if i != 0 {
        assert i - 1 in tail;
      }
    }
    assert NewCaptures(before, after) == head + Shift(tail);
    ShiftCard(tail);
    assert 0 !in Shift(tail);
  }

  datatype HuntOut = HuntOut(partner: Partner, creatures: seq<Creature>, sent: seq<ClientMsg>)

  /** `updateHunt`: smooth the partner light once more, then step every
      creature against both lights, sending `capture` for each new capture
      while the socket is open. `draws[i]` feeds the tank placement of `cs[i]`. */
  function UpdateHunt(canvas: Canvas, images: map<string, Render.Image>, my: Point, partner: Partner,
                      socketOpen: bool, draws: seq<Draw>, dt: real, cs: seq<Creature>): (r: HuntOut)
    requires |draws| == |cs|
    ensures r.partner == FollowPartner(partner)
    ensures |r.creatures| == |cs|
    ensures forall i :: 0 <= i < |cs| ==>
      r.creatures[i] == HuntCreature(canvas, images, my, PartnerPoint(r.partner), draws[i], dt, cs[i])
    ensures forall i :: 0 <= i < |cs| && cs[i].captured ==> r.creatures[i] == cs[i]
    ensures forall i :: 0 <= i < |cs| ==> SameEntry(cs[i], r.creatures[i])
    ensures forall msg :: msg in r.sent <==>
      socketOpen && exists i :: 0 <= i < |cs| && !cs[i].captured && r.creatures[i].captured
                                && msg == CaptureMsg(cs[i].id)
    ensures |r.sent| == if socketOpen then |NewCaptures(cs, r.creatures)| else 0
  {
    var q := FollowPartner(partner);
    var after := seq(|cs|, i requires 0 <= i < |cs| =>
      HuntCreature(canvas, images, my, PartnerPoint(q), draws[i], dt, cs[i]));
    HuntOut(q, after, if socketOpen then CaptureMessages(cs, after) else [])
  }

  /** A creature's `capture` message goes out in the tick that captures it and
      never again: in the next tick it is skipped as already captured. */
  lemma CaptureSentOnce(canvas: Canvas, images: map<string, Render.Image>,
                        my1: Point, partner1: Partner, open1: bool, draws1: seq<Draw>, dt1: real,
                        my2: Point, partner2: Partner, open2: bool, draws2: seq<Draw>, dt2: real,
                        cs: seq<Creature>)
    requires DistinctIds(cs) && |draws1| == |cs| && |draws2| == |cs|
    ensures var r1 := UpdateHunt(canvas, images, my1, partner1, open1, draws1, dt1, cs);
            var r2 := UpdateHunt(canvas, images, my2, partner2, open2, draws2, dt2, r1.creatures);
            forall msg :: msg in r1.sent ==> msg !in r2.sent
  {
    var r1 := UpdateHunt(canvas, images, my1, partner1, open1, draws1, dt1, cs);
    var r2 := UpdateHunt(canvas, images, my2, partner2, open2, draws2, dt2, r1.creatures);
    NoResend(cs, r1.creatures, r1.sent, r2.creatures, r2.sent);
  }

  /** The counting argument behind `CaptureSentOnce`, for any two ticks that
      keep registry entries, report exactly the new captures and never
      release a capture. */
  lemma NoResend(cs: seq<Creature>, a: seq<Creature>, sentA: seq<ClientMsg>, b: seq<Creature>, sentB: seq<ClientMsg>)
    requires DistinctIds(cs) && |a| == |cs| && |b| == |cs|
    requires forall i :: 0 <= i < |cs| ==> SameEntry(cs[i], a[i])
    requires forall msg :: msg in sentA ==>
      exists i :: 0 <= i < |cs| && !cs[i].captured && a[i].captured && msg == CaptureMsg(cs[i].id)
    requires forall msg :: msg in sentB ==>
      exists i :: 0 <= i < |a| && !a[i].captured && b[i].captured && msg == CaptureMsg(a[i].id)
    ensures forall msg :: msg in sentA ==> msg !in sentB
  {
    forall msg | msg in sentA
      ensures msg !in sentB
    {
      var i :| 0 <= i < |cs| && !cs[i].captured && a[i].captured && msg == CaptureMsg(cs[i].id);
      forall j | 0 <= j < |cs| && !a[j].captured
        ensures msg != CaptureMsg(a[j].id)
      {
        assert SameEntry(cs[j], a[j]);
        assert j != i;
      }
    }
  }
}

=== FILE: mathjs.dfy ===
/** The numeric helpers of client/math.js, over `real`.
    `Math.hypot(...) <= r` is modelled as a comparison of squared distances. */
module MathJs {

  datatype Point = Point(x: real, y: real)

  function Min(a: real, b: real): (r: real)
    ensures r <= a && r <= b && (r == a || r == b)
  {
    if a <= b then a else b
  }

  function Max(a: real, b: real): (r: real)
    ensures r >= a && r >= b && (r == a || r == b)
  {
    if a >= b then a else b
  }

  /** `clamp(v, min, max) = Math.max(min, Math.min(max, v))`: when the interval
      is empty the lower bound wins. */
  function Clamp(v: real, lo: real, hi: real): (r: real)
    ensures lo <= hi ==> lo <= r <= hi
    ensures lo <= v <= hi ==> r == v
    ensures v < lo ==> r == lo
    ensures lo <= hi && hi < v ==> r == hi
    ensures hi < lo ==> r == lo
  {
    Max(lo, Min(hi, v))
  }

  function Clamp01(v: real): (r: real)
    ensures 0.0 <= r <= 1.0
    ensures 0.0 <= v <= 1.0 ==> r == v
    ensures v <= 0.0 ==> r == 0.0
    ensures 1.0 <= v ==> r == 1.0
  {
    Clamp(v, 0.0, 1.0)
  }

  /** The smoothstep polynomial on an already clamped argument. */
  function Cubic(t: real): real {
    t * t * (3.0 - 2.0 * t)
  }

  /** `smooth(t)`: smoothstep of `t` clamped into [0, 1]. */
  function Smooth(t: real): (r: real)
    ensures 0.0 <= r <= 1.0
    ensures t <= 0.0 ==> r == 0.0
    ensures 1.0 <= t ==> r == 1.0
    ensures r == 1.0 <==> 1.0 <= t
    ensures r == 0.0 <==> t <= 0.0
  {
    var c := Clamp01(t);
    CubicRange(c);
    Cubic(c)
  }

  /** On [0, 1] the cubic stays in [0, 1], reaching 0 only at 0 and 1 only at 1. */
  lemma CubicRange(t: real)
    requires 0.0 <= t <= 1.0
    ensures 0.0 <= Cubic(t) <= 1.0
    ensures Cubic(t) == 1.0 <==> t == 1.0
    ensures Cubic(t) == 0.0 <==> t == 0.0
  {
    if t < 1.0 {
      MulPos(1.0 - t, 1.0 + 2.0 * t);
      MulPos(1.0 - t, Mul(1.0 - t, 1.0 + 2.0 * t));
      assert 1.0 - Cubic(t) == Mul(1.0 - t, Mul(1.0 - t, 1.0 + 2.0 * t));
    }
    if 0.0 < t {
      MulPos(t, 3.0 - 2.0 * t);
      MulPos(t, Mul(t, 3.0 - 2.0 * t));
      assert Cubic(t) == Mul(t, Mul(t, 3.0 - 2.0 * t));
    }
  }

  /** Multiplication behind a function symbol, so that sign facts about a
      product of compound terms survive being passed between lemmas. */
  function Mul(a: real, b: real): real {
    a * b
  }

  lemma MulNonneg(a: real, b: real)
    requires 0.0 <= a && 0.0 <= b
    ensures 0.0 <= Mul(a, b)
  {
  }

  lemma MulPos(a: real, b: real)
    requires 0.0 < a && 0.0 < b
    ensures 0.0 < Mul(a, b)
  {
  }

  /** A draw `u` in [0, 1) scaled by a positive span stays in [0, span). */
  lemma ScaleUnit(u: real, span: real)
    requires 0.0 <= u < 1.0 && 0.0 < span
    ensures 0.0 <= Mul(u, span) < span
  {
    MulNonneg(u, span);
    MulPos(1.0 - u, span);
    assert Mul(1.0 - u, span) == span - Mul(u, span);
  }

  /** The difference of two cubic values factors through `q - p`. */
  lemma CubicDiff(p: real, q: real)
    ensures Cubic(q) - Cubic(p) == Mul(q - p, Mul(p, 3.0 - 2.0 * p - q) + Mul(q, 3.0 - 2.0 * q - p))
  {
  }

  /** `smooth` is non-decreasing. */
  lemma SmoothMonotone(a: real, b: real)
    requires a <= b
    ensures Smooth(a) <= Smooth(b)
  {
    var p, q := Clamp01(a), Clamp01(b);
    MulNonneg(p, 3.0 - 2.0 * p - q);
    MulNonneg(q, 3.0 - 2.0 * q - p);
    MulNonneg(q - p, Mul(p, 3.0 - 2.0 * p - q) + Mul(q, 3.0 - 2.0 * q - p));
    CubicDiff(p, q);
  }

  function DistSq(a: Point, b: Point): real {
    (a.x - b.x) * (a.x - b.x) + (a.y - b.y) * (a.y - b.y)
  }

  /** `dist(a, b) <= r`, i.e. `Math.hypot(a.x - b.x, a.y - b.y) <= r`. */
  predicate Within(a: Point, b: Point, r: real) {
    0.0 <= r && DistSq(a, b) <= r * r
  }

  /** `Within` agrees with comparing the true Euclidean distance `d` (the value
      `Math.hypot` returns) against `r`, and does not depend on argument order. */
  lemma WithinIsHypot(a: Point, b: Point, r: real, d: real)
    requires 0.0 <= d && d * d == DistSq(a, b)
    ensures d <= r <==> Within(a, b, r)
    ensures Within(a, b, r) <==> Within(b, a, r)
  {
    assert DistSq(a, b) == DistSq(b, a);
    if 0.0 <= r {
      if d <= r {
        MulNonneg(r - d, r + d);
        assert Mul(r - d, r + d) == r * r - d * d;
      } else {
        MulPos(d - r, d + r);
        assert Mul(d - r, d + r) == d * d - r * r;
      }
    }
  }

  /** A point is within any non-negative radius of itself. */
  lemma WithinSelf(a: Point, r: real)
    requires 0.0 <= r
    ensures Within(a, a, r)
  {
    MulNonneg(r, r);
    assert Mul(r, r) == r * r;
  }
}

=== FILE: options.dfy ===
/** A value that may be missing: a JavaScript `null`/`undefined` field, or a
    number that failed `Number.isFinite`. */
module Options {

  datatype Option<+T> = None | Some(value: T) {

    /** The value, or `default` when missing (the `?? default` of the source). */
    function GetOr(default: T): T {
      match this
      case Some(v) => v
      case None => default
    }
  }
}

=== FILE: protocol.dfy ===
/** The shapes exchanged between the two clients and the relay server
    (client/aquarium.js, client/hunt.js and server.js), after JSON decoding. */
module Protocol {

  /** A tank record `{x, y, vx, vy}`: position and velocity in the tank view. */
  datatype Tank = Tank(x: real, y: real, vx: real, vy: real)

  /** A connection id handed out by the server (`crypto.randomUUID()`), never empty. */
  type ClientId = s: string | |s| > 0 witness "client"

  /** What a client sends. Every number a client sends is finite. */
  datatype ClientMsg =
    | CursorMsg(x: real, y: real)
    | PingMsg(x: real, y: real)
    | CaptureMsg(creatureId: string)
    | TankMoveMsg(creatureId: string, x: real, y: real, vx: real, vy: real)

  /** What the server sends. */
  datatype ServerMsg =
    | Welcome(id: ClientId, captured: set<string>, tank: map<string, Tank>)
    | RoomFull
    | CursorRelay(x: real, y: real)
    | PingRelay(x: real, y: real)
    | Captured(creatureId: string)
    | TankMoveRelay(creatureId: string, x: real, y: real, vx: real, vy: real)
}

=== FILE: render.dfy ===
/** The non-drawing part of client/render.js: its own copies of `clamp01` and
    `smooth`, sprite metrics (image sizes are inputs) and `clampSpriteToView`. */
module Render {
  import MathJs
  import opened Creatures

  /** render.js's own `clamp01`, written with `Math.max`/`Math.min` directly;
      it coincides with the math.js one. */
  function Clamp01(v: real): (r: real)
    ensures r == MathJs.Clamp01(v)
  {
    MathJs.Max(0.0, MathJs.Min(1.0, v))
  }

  /** render.js's own `smooth`; it coincides with the math.js one. */
  function Smooth(t: real): (r: real)
    ensures r == MathJs.Smooth(t)
  {
    var c := Clamp01(t);
    c * c * (3.0 - 2.0 * c)
  }

  /** What an `<img>` reports: zero while not yet loaded. */
  datatype Image = Image(naturalWidth: nat, width: nat, naturalHeight: nat, height: nat)

  /** `natural || plain || 140`: the first non-zero of the two sizes, else 140. */
  function Dim(natural: nat, plain: nat): (r: real)
    ensures 1.0 <= r
    ensures natural != 0 ==> r == natural as real
    ensures natural == 0 && plain != 0 ==> r == plain as real
    ensures natural == 0 && plain == 0 ==> r == 140.0
  {
    if natural != 0 then natural as real
    else if plain != 0 then plain as real
    else 140.0
  }

  /** Image width and height for a sprite key; a missing image counts as 140 x 140. */
  function ImageWidth(images: map<string, Image>, key: string): (r: real)
    ensures 1.0 <= r
    ensures key !in images ==> r == 140.0
  {
    if key in images then Dim(images[key].naturalWidth, images[key].width) else 140.0
  }

  function ImageHeight(images: map<string, Image>, key: string): (r: real)
    ensures 1.0 <= r
    ensures key !in images ==> r == 140.0
  {
    if key in images then Dim(images[key].naturalHeight, images[key].height) else 140.0
  }

  datatype Metrics = Metrics(w: real, h: real, halfW: real, halfH: real, hitR: real)

  /** The capture pulse grows a sprite by at most 18 %. */
  function Pulse(capture: real): (r: real)
    ensures 1.0 <= r <= 1.18
    ensures capture <= 0.0 ==> r == 1.0
    ensures 1.0 <= capture ==> r == 1.18
  {
    1.0 + Smooth(capture) * 0.18
  }

  function BaseScale(c: Creature): (r: real)
    ensures 0.0 < r
  {
    if c.size == Large then ScaleLarge else ScaleSmall
  }

  /** `spriteMetrics`: drawn size from the image size, the size-class scale
      and the capture pulse; the hit radius is floored at the size class's
      radius and otherwise scales with the sprite, up to 160. */
  function SpriteMetrics(images: map<string, Image>, c: Creature): (m: Metrics)
    ensures 0.0 < m.w && 0.0 < m.h
    ensures m.halfW == m.w / 2.0 && m.halfH == m.h / 2.0
    ensures CreatureHitR(c) <= m.hitR <= 160.0
    ensures m.hitR == CreatureHitR(c) || m.hitR == 160.0 || m.hitR == MathJs.Min(m.w, m.h) * 0.32
  {
    var scale := BaseScale(c) * Pulse(c.captureFrac);
    var w := MathJs.Mul(ImageWidth(images, c.imgKey), scale);
    var h := MathJs.Mul(ImageHeight(images, c.imgKey), scale);
    MathJs.MulPos(ImageWidth(images, c.imgKey), scale);
    MathJs.MulPos(ImageHeight(images, c.imgKey), scale);
    var hitR := MathJs.Max(CreatureHitR(c), MathJs.Min(160.0, MathJs.Min(w, h) * 0.32));
    Metrics(w, h, w / 2.0, h / 2.0, hitR)
  }

  /** The metrics exactly: the image size scaled by the size class and the
      capture pulse, and the hit radius a third of the smaller side (0.32)
      clamped between the size class's radius and 160. */
  lemma MetricsExact(images: map<string, Image>, c: Creature)
    ensures var m := SpriteMetrics(images, c);
      var scale := BaseScale(c) * Pulse(c.captureFrac);
      && m.w == MathJs.Mul(ImageWidth(images, c.imgKey), scale)
      && m.h == MathJs.Mul(ImageHeight(images, c.imgKey), scale)
      && m.hitR == MathJs.Clamp(MathJs.Min(m.w, m.h) * 0.32, CreatureHitR(c), 160.0)
  {
  }

  /** A sprite's metrics depend only on its image, its size class and its
      capture fraction. */
  lemma MetricsOfLook(images: map<string, Image>, c: Creature, d: Creature)
    requires c.imgKey == d.imgKey && c.size == d.size && c.captureFrac == d.captureFrac
    ensures SpriteMetrics(images, c) == SpriteMetrics(images, d)
  {
  }

  /** `clampSpriteToView`: keep a sprite of the given half-extents `pad`
      pixels inside the canvas. */
  function ClampSpriteToView(canvas: Canvas, x: real, y: real, halfW: real, halfH: real,
                             pad: real := 18.0): (p: MathJs.Point)
    ensures halfW + pad <= canvas.width - halfW - pad ==>
      halfW + pad <= p.x <= canvas.width - halfW - pad
    ensures halfH + pad <= canvas.height - halfH - pad ==>
      halfH + pad <= p.y <= canvas.height - halfH - pad
    ensures halfW + pad <= x <= canvas.width - halfW - pad ==> p.x == x
    ensures halfH + pad <= y <= canvas.height - halfH - pad ==> p.y == y
    ensures p.x == MathJs.Clamp(x, halfW + pad, canvas.width - halfW - pad)
    ensures p.y == MathJs.Clamp(y, halfH + pad, canvas.height - halfH - pad)
  {
    MathJs.Point(
      MathJs.Max(halfW + pad, MathJs.Min(canvas.width - halfW - pad, x)),
      MathJs.Max(halfH + pad, MathJs.Min(canvas.height - halfH - pad, y)))
  }

  /** Clamping a sprite into view twice is the same as once, even when the
      canvas is too small for the sprite. */
  lemma ClampSpriteIdempotent(canvas: Canvas, x: real, y: real, halfW: real, halfH: real, pad: real)
    ensures var p := ClampSpriteToView(canvas, x, y, halfW, halfH, pad);
      ClampSpriteToView(canvas, p.x, p.y, halfW, halfH, pad) == p
  {
  }
}

=== FILE: scenarios.dfy ===
/** End-to-end runs through the model: the server relaying a tank move, a
    late joiner receiving the room's history, a dual-light capture over two
    ticks, and a capture reaching the partner's screen. */
module Scenarios {
  import opened Options
  import opened MathJs
  import opened Protocol
  import opened Creatures
  import Render
  import Hunt
  import Server
  import Aquarium
  import Text

  /** A moves the octopus to (100, 200) without a velocity in a room it shares
      with B: B alone receives the move, with the velocity defaulted to 0,
      and the room's tank map holds exactly that record for the octopus. */
  lemma OctopusTankMove(a: ClientId, b: ClientId, captured: set<string>, tank: map<string, Protocol.Tank>)
    requires a != b
    ensures var rooms := map["r" := Server.Room([a, b], captured, tank)];
      var r := Server.OnMessage(rooms, {a, b}, "r", a, Server.TankMove("octopus", Some(100.0), Some(200.0), None, None));
      && r.1 == [Server.Send(b, TankMoveRelay("octopus", 100.0, 200.0, 0.0, 0.0))]
      && r.0["r"].tank == tank["octopus" := Protocol.Tank(100.0, 200.0, 0.0, 0.0)]
      && r.0["r"].captured == captured && r.0["r"].clients == [a, b]
  {
  }

  /** The hash-free room name "abc" is used as given. */
  lemma AbcRoomName()
    ensures Server.RoomName(Some("abc")) == "abc"
  {
    var s := "abc";
    assert s[0] == 'a' && !Text.IsSpace(s[0]);
    Text.TrimUntouched("abc");
  }

  /** A opens room "abc": the room is created with A alone in it, and A is
      welcomed with an empty state. */
  lemma AbcFirstJoin(a: ClientId)
    ensures Server.OnConnect(map[], a, Some("abc"))
         == (map["abc" := Server.Room([a], {}, map[])], [Server.Send(a, Welcome(a, {}, map[]))])
  {
    AbcRoomName();
    assert Server.GetRoom(map[], "abc") == Server.Room([], {}, map[]);
    assert [] + [a] == [a];
  }

  /** A, alone in "abc", catches the first jellyfish and then moves the
      octopus: the room remembers both. */
  lemma AbcHistory(a: ClientId, t: Protocol.Tank)
    ensures
      var r1 := map["abc" := Server.Room([a], {}, map[])];
      var r2 := Server.OnMessage(r1, {a}, "abc", a, Server.Received(CaptureMsg("jelly1"))).0;
      var r3 := Server.OnMessage(r2, {a}, "abc", a, Server.Received(TankMoveMsg("octopus", t.x, t.y, t.vx, t.vy))).0;
      r3 == map["abc" := Server.Room([a], {"jelly1"}, map["octopus" := t])]
  {
    var r1 := map["abc" := Server.Room([a], {}, map[])];
    assert Server.Received(CaptureMsg("jelly1")) == Server.Capture("jelly1");
    var r2 := Server.OnMessage(r1, {a}, "abc", a, Server.Received(CaptureMsg("jelly1"))).0;
    assert {} + {"jelly1"} == {"jelly1"};
    assert r2 == map["abc" := Server.Room([a], {"jelly1"}, map[])];
    var move := Server.Received(TankMoveMsg("octopus", t.x, t.y, t.vx, t.vy));
    assert move == Server.TankMove("octopus", Some(t.x), Some(t.y), Some(t.vx), Some(t.vy));
  }

  /** B joins "abc" after that history: B is welcomed with both facts and
      the room holds A then B. */
  lemma AbcSecondJoin(a: ClientId, b: ClientId, t: Protocol.Tank)
    requires a != b
    ensures
      var r3 := map["abc" := Server.Room([a], {"jelly1"}, map["octopus" := t])];
      var s4 := Server.OnConnect(r3, b, Some("abc"));
      && s4.1 == [Server.Send(b, Welcome(b, {"jelly1"}, map["octopus" := t]))]
      && s4.0["abc"].clients == [a, b]
  {
    AbcRoomName();
  }

  /** A third connection to "abc" is answered `room_full` and closed, and
      the room is left as it was. */
  lemma AbcThirdJoin(a: ClientId, b: ClientId, c: ClientId, t: Protocol.Tank)
    ensures var r := map["abc" := Server.Room([a, b], {"jelly1"}, map["octopus" := t])];
      Server.OnConnect(r, c, Some("abc")) == (r, [Server.Send(c, RoomFull), Server.Disconnect(c)])
  {
    AbcRoomName();
  }

  /** The whole exchange as server events: A opens room "abc", catches the
      first jellyfish and moves the octopus; B then joins "abc" and is
      welcomed with both facts. */
  lemma LateJoinerAbc(a: ClientId, b: ClientId, t: Protocol.Tank)
    requires a != b
    ensures
      var s1 := Server.Step(map[], {a}, Server.Connect(a, Some("abc")));
      var s2 := Server.Step(s1.0, {a}, Server.Message("abc", a, Server.Received(CaptureMsg("jelly1"))));
      var s3 := Server.Step(s2.0, {a}, Server.Message("abc", a, Server.Received(TankMoveMsg("octopus", t.x, t.y, t.vx, t.vy))));
      var s4 := Server.Step(s3.0, {a, b}, Server.Connect(b, Some("abc")));
      && s1.1 == [Server.Send(a, Welcome(a, {}, map[]))]
      && s4.1 == [Server.Send(b, Welcome(b, {"jelly1"}, map["octopus" := t]))]
      && s4.0["abc"].clients == [a, b]
  {
    AbcFirstJoin(a);
    AbcHistory(a, t);
    AbcSecondJoin(a, b, t);
  }

  /** A welcome on the hunt view replaces the creatures by their restore. */
  lemma WelcomeOnHunt(c: Aquarium.Client, id: ClientId, captured: set<string>, tank: map<string, Protocol.Tank>,
                      draws: seq<Draw>)
    requires |draws| == |c.world.creatures| && c.view != "tank"
    ensures Aquarium.Receive(c, Welcome(id, captured, tank), draws).world.creatures
         == Aquarium.Restore(c.world.creatures, captured, tank)
  {
  }

  /** Restoring "jelly1" as captured and the octopus in the tank over the
      freshly created creatures touches those two alone. */
  lemma RegistryRestore(t: Protocol.Tank)
    ensures var cs := CreateCreatures();
      var r := Aquarium.Restore(cs, {"jelly1"}, map["octopus" := t]);
      && r[0].captured && r[0].revealFrac == 1.0 && r[0].captureFrac == 1.0 && r[0].tank.None?
      && r[6].captured && r[6].tank == Some(t)
      && forall i :: 0 <= i < 13 && i != 0 && i != 6 ==> r[i] == cs[i]
  {
    var cs := CreateCreatures();
    RegistryWellFormed();
    Aquarium.RestoreCaptured(cs, {"jelly1"}, map["octopus" := t]);
    assert cs[0].id == "jelly1" && cs[6].id == "octopus";
    assert !cs[0].captured && cs[0].tank.None?;
    forall i | 0 <= i < 13 && i != 0 && i != 6
      ensures cs[i].id != "jelly1" && cs[i].id != "octopus"
    {
      RegistryIdsDistinct();
      assert cs[i].id == Registry[i].id;
    }
  }

  /** The late joiner's screen: after the welcome of `LateJoinerAbc`, the
      first jellyfish is caught, the octopus is caught and placed at `t`, and
      every other creature is as the page loaded it. */
  lemma LateJoinerScreen(canvas: Canvas, images: map<string, Render.Image>, hash: string, now: real,
                         b: ClientId, t: Protocol.Tank, draws: seq<Draw>)
    requires |draws| == 13
    requires Aquarium.ParseHash(hash).view != "tank"
    ensures var c0 := Aquarium.Boot(canvas, images, hash, now);
      var c1 := Aquarium.Receive(c0, Welcome(b, {"jelly1"}, map["octopus" := t]), draws);
      var cs := c1.world.creatures;
      && c1.myId == Some(b)
      && cs[0].captured && cs[0].revealFrac == 1.0 && cs[0].captureFrac == 1.0 && cs[0].tank.None?
      && cs[6].captured && cs[6].tank == Some(t)
      && forall i :: 0 <= i < 13 && i != 0 && i != 6 ==> cs[i] == c0.world.creatures[i]
  {
    var c0 := Aquarium.Boot(canvas, images, hash, now);
    assert c0.world.creatures == CreateCreatures();
    WelcomeOnHunt(c0, b, {"jelly1"}, map["octopus" := t], draws);
    RegistryRestore(t);
  }

  /** With both lights on a creature's anchor, both lights reveal it and
      both hit it. */
  lemma BothLightsOn(canvas: Canvas, images: map<string, Render.Image>, c: Creature)
    ensures var p := CreaturePos(canvas, c);
      Hunt.RevealOk(canvas, c, p, p) && Hunt.CaptureOk(canvas, images, c, p, p)
  {
    var p := CreaturePos(canvas, c);
    WithinSelf(p, LightR);
    WithinSelf(p, Render.SpriteMetrics(images, c).hitR);
  }

  /** A tick that reveals and hits an uncaptured creature runs its reveal
      timer up, and, once the gate is open, its capture timer too. */
  lemma LitTick(canvas: Canvas, images: map<string, Render.Image>, my: Point, partner: Point,
                d: Draw, dt: real, c: Creature)
    requires !c.captured
    requires Hunt.RevealOk(canvas, c, my, partner) && Hunt.CaptureOk(canvas, images, c, my, partner)
    ensures var r := Hunt.HuntCreature(canvas, images, my, partner, d, dt, c);
      && r.revealT == Min(CreatureRevealNeed(c), c.revealT + dt)
      && (Hunt.Gate(r) ==> r.captureT == Min(CreatureCaptureNeed(c), c.captureT + dt))
  {
  }

  /** A tick does not move a creature's anchor. */
  lemma SamePlace(canvas: Canvas, c: Creature, d: Creature)
    requires SameEntry(c, d)
    ensures CreaturePos(canvas, c) == CreaturePos(canvas, d)
  {
  }

  /** A reveal timer at its need opens the gate. */
  lemma GateAtNeed(c: Creature)
    requires c.revealT == CreatureRevealNeed(c)
    ensures Hunt.Gate(c)
  {
    assert c.revealT / CreatureRevealNeed(c) == 1.0;
  }

  /** An uncaptured creature whose reveal timer is at its need shows fully. */
  lemma FullyRevealed(c: Creature)
    requires Hunt.FractionsMatch(c) && c.revealT == CreatureRevealNeed(c)
    ensures c.revealFrac == 1.0
  {
    assert c.revealT / CreatureRevealNeed(c) == 1.0;
  }

  /** First tick of 0.65 s with both lights on a fresh large dual-light
      creature: the reveal timer reaches its need and the capture timer runs
      the whole tick, short of its 0.75 s need. */
  lemma DualFirstTimers(canvas: Canvas, images: map<string, Render.Image>, d: Draw, c0: Creature)
    requires Fresh(c0) && c0.size == Large && Hunt.Dual(c0)
    ensures var p := CreaturePos(canvas, c0);
      var c1 := Hunt.HuntCreature(canvas, images, p, p, d, 0.65, c0);
      c1.revealT == 0.65 && c1.captureT == 0.65
  {
    var p := CreaturePos(canvas, c0);
    BothLightsOn(canvas, images, c0);
    LitTick(canvas, images, p, p, d, 0.65, c0);
    var c1 := Hunt.HuntCreature(canvas, images, p, p, d, 0.65, c0);
    assert c1.revealT == 0.65;
    GateAtNeed(c1);
  }

  /** After that first tick the creature is fully revealed but not caught. */
  lemma DualFirstTick(canvas: Canvas, images: map<string, Render.Image>, d: Draw, c0: Creature)
    requires Fresh(c0) && c0.size == Large && Hunt.Dual(c0)
    ensures var p := CreaturePos(canvas, c0);
      var c1 := Hunt.HuntCreature(canvas, images, p, p, d, 0.65, c0);
      && !c1.captured && c1.revealT == 0.65 && c1.revealFrac == 1.0 && c1.captureT == 0.65
      && SameEntry(c0, c1)
  {
    DualFirstTimers(canvas, images, d, c0);
    var p := CreaturePos(canvas, c0);
    var c1 := Hunt.HuntCreature(canvas, images, p, p, d, 0.65, c0);
    Hunt.CaptureRatio(0.65, 0.75);
    assert !c1.captured;
    FullyRevealed(c1);
  }

  /** Second tick under both lights, from a revealed creature whose capture
      timer is 0.1 s short of its need: the creature is caught. */
  lemma DualSecondTick(canvas: Canvas, images: map<string, Render.Image>, d: Draw, c1: Creature)
    requires !c1.captured && c1.size == Large && Hunt.Dual(c1)
    requires c1.revealT == 0.65 && c1.captureT == 0.65
    ensures var p := CreaturePos(canvas, c1);
      var c2 := Hunt.HuntCreature(canvas, images, p, p, d, 0.65, c1);
      && c2.captured && c2.revealFrac == 1.0 && c2.captureFrac == 1.0 && c2.tank.Some?
  {
    var p := CreaturePos(canvas, c1);
    BothLightsOn(canvas, images, c1);
    LitTick(canvas, images, p, p, d, 0.65, c1);
    var c2 := Hunt.HuntCreature(canvas, images, p, p, d, 0.65, c1);
    assert c2.revealT == 0.65;
    GateAtNeed(c2);
    assert c2.captureT == 0.75;
  }

  /** A large dual-light creature under both lights: after one tick of
      0.65 s it is fully revealed but not yet caught; after a second tick it
      is caught and placed in the tank. */
  lemma DualCaptureTwoTicks(canvas: Canvas, images: map<string, Render.Image>, d: Draw, c0: Creature)
    requires Fresh(c0) && c0.size == Large && Hunt.Dual(c0)
    ensures
      var p := CreaturePos(canvas, c0);
      var c1 := Hunt.HuntCreature(canvas, images, p, p, d, 0.65, c0);
      var c2 := Hunt.HuntCreature(canvas, images, p, p, d, 0.65, c1);
      && !c1.captured && c1.revealFrac == 1.0
      && c2.captured && c2.revealFrac == 1.0 && c2.captureFrac == 1.0 && c2.tank.Some?
  {
    DualFirstTick(canvas, images, d, c0);
    var p := CreaturePos(canvas, c0);
    var c1 := Hunt.HuntCreature(canvas, images, p, p, d, 0.65, c0);
    SamePlace(canvas, c0, c1);
    DualSecondTick(canvas, images, d, c1);
    assert c1.revealFrac == 1.0;
  }

  /** The fifth jellyfish is such a creature. */
  lemma Jelly5IsLargeDual()
    ensures var c := CreateCreatures()[12];
      c.id == "jelly5" && Fresh(c) && c.size == Large && Hunt.Dual(c)
  {
  }

  /** A capture sent by one client is recorded by the server and relayed to
      the partner, whose screen then shows the creature caught; the sender's
      own copy of the relay changes nothing it has not already done. */
  lemma CaptureReachesPartner(rooms: Server.Rooms, open: set<ClientId>, name: string, a: ClientId, b: ClientId,
                              partner: Aquarium.Client, sender: Aquarium.Client, k: nat, draws: seq<Draw>)
    requires name in rooms && a in rooms[name].clients && b in rooms[name].clients && b in open
    requires DistinctIds(partner.world.creatures) && k < |partner.world.creatures|
    requires partner.world.creatures[k].id != []
    requires |draws| == |partner.world.creatures| && |draws| == |sender.world.creatures|
    requires var j := ById(sender.world.creatures, partner.world.creatures[k].id);
      j.Some? && sender.world.creatures[j.value].captured
    ensures var cid := partner.world.creatures[k].id;
      var r := Server.OnMessage(rooms, open, name, a, Server.Received(CaptureMsg(cid)));
      && cid in r.0[name].captured
      && Server.Send(b, Captured(cid)) in r.1
      && Aquarium.Receive(partner, Captured(cid), draws).world.creatures[k].captured
      && Aquarium.Receive(sender, Captured(cid), draws) == sender
  {
    ByIdDistinct(partner.world.creatures, k);
  }
}

=== FILE: server.dfy ===
/** The relay server of server.js as an event-transition function: rooms of
    at most two clients sharing a captured set and a tank map. Sockets become
    client ids, a socket's `readyState === OPEN` becomes membership in the
    `open` set, and every send becomes an entry of the returned outbox. */
module Server {
  import opened Options
  import opened Protocol
  import Text

  /** A room: its clients in join order and its shared state. */
  datatype Room = Room(clients: seq<ClientId>, captured: set<string>, tank: map<string, Tank>)

  type Rooms = map<string, Room>

  /** A client message after `JSON.parse` and `Number()`: a number that is not
      finite is `None`, a missing `creatureId` is "". */
  datatype Inbound =
    | Unparsed                     // `JSON.parse` threw
    | Untyped                      // no string `type` field
    | Cursor(x: Option<real>, y: Option<real>)
    | Ping(x: Option<real>, y: Option<real>)
    | Capture(creatureId: string)
    | TankMove(creatureId: string, x: Option<real>, y: Option<real>, vx: Option<real>, vy: Option<real>)
    | OtherType(name: string)

  /** How a message sent by a client arrives. */
  function Received(m: ClientMsg): (r: Inbound)
    ensures r.Cursor? || r.Ping? || r.Capture? || r.TankMove?
  {
    match m
    case CursorMsg(x, y) => Cursor(Some(x), Some(y))
    case PingMsg(x, y) => Ping(Some(x), Some(y))
    case CaptureMsg(id) => Capture(id)
    case TankMoveMsg(id, x, y, vx, vy) => TankMove(id, Some(x), Some(y), Some(vx), Some(vy))
  }

  /** A socket event. `Message` and `Close` name the room and the id the
      connection's handlers were registered with. */
  datatype Event =
    | Connect(conn: ClientId, roomParam: Option<string>)
    | Message(room: string, from: ClientId, msg: Inbound)
    | Close(room: string, client: ClientId)

  /** One effect on a socket. */
  datatype Out = Send(to: ClientId, msg: ServerMsg) | Disconnect(to: ClientId)

  predicate Distinct(s: seq<ClientId>) {
    forall i, j :: 0 <= i < j < |s| ==> s[i] != s[j]
  }

  /** Every room holds one or two distinct clients. */
  predicate RoomsOk(rooms: Rooms) {
    forall n :: n in rooms ==> 1 <= |rooms[n].clients| <= 2 && Distinct(rooms[n].clients)
  }

  /** The room parameter of the connection URL: missing, empty or white space
      selects "default", anything else is trimmed. */
  function RoomName(param: Option<string>): (r: string)
    ensures r != []
    ensures param.None? || Text.AllSpace(param.value) ==> r == "default"
    ensures param.Some? && !Text.AllSpace(param.value) ==> r == Text.Trim(param.value)
  {
    // "default" is its own trim, so it needs no trimming.
    if param.None? || param.value == [] then "default"
    else
      var t := Text.Trim(param.value);
      if t == [] then "default" else t
  }

  /** `getRoom`: the named room, or a fresh empty one. */
  function GetRoom(rooms: Rooms, name: string): (r: Room)
    ensures name in rooms ==> r == rooms[name]
    ensures name !in rooms ==> r == Room([], {}, map[])
  {
    if name in rooms then rooms[name] else Room([], {}, map[])
  }

  /** `broadcast`: the message to every open client of the room, in join
      order, except `except`. */
  function Broadcast(clients: seq<ClientId>, open: set<ClientId>, msg: ServerMsg, except: Option<ClientId>): (r: seq<Out>)
    ensures |r| <= |clients|
    ensures forall o :: o in r ==> o.Send? && o.msg == msg
    ensures forall id :: Send(id, msg) in r <==> id in clients && id in open && except != Some(id)
    ensures (forall i, j :: 0 <= i < j < |clients| ==> clients[i] != clients[j]) ==>
      forall i, j :: 0 <= i < j < |r| ==> r[i] != r[j]
  {
    if clients == [] then []
    else
      var rest := Broadcast(clients[1..], open, msg, except);
      if except == Some(clients[0]) || clients[0] !in open then rest
      else [Send(clients[0], msg)] + rest
  }

  /** Every id of `s` but `x`. */
  function Remove(s: seq<ClientId>, x: ClientId): (r: seq<ClientId>)
    ensures forall y :: y in r <==> y in s && y != x
    ensures x !in s ==> r == s
    ensures Distinct(s) ==> Distinct(r)
    ensures Distinct(s) && x in s ==> |r| == |s| - 1
  {
    if s == [] then []
    else
      var rest := Remove(s[1..], x);
      if s[0] == x then rest
      else
        assert Distinct(s) ==> s[0] !in s[1..];
        [s[0]] + rest
  }

  /** The connection handler: a room already holding two clients answers
      `room_full` and closes the socket; otherwise the client joins (a room
      is created on first use) and is welcomed with the room's state. */
  function OnConnect(rooms: Rooms, conn: ClientId, param: Option<string>): (r: (Rooms, seq<Out>))
    ensures var name := RoomName(param); var room := GetRoom(rooms, name);
      if |room.clients| >= 2 then
        r == (rooms, [Send(conn, RoomFull), Disconnect(conn)])
      else
        && name in r.0 && r.0 == rooms[name := r.0[name]]
        && r.0[name].captured == room.captured && r.0[name].tank == room.tank
        && (conn in room.clients ==> r.0[name].clients == room.clients)
        && (conn !in room.clients ==> r.0[name].clients == room.clients + [conn])
        && r.1 == [Send(conn, Welcome(conn, room.captured, room.tank))]
  {
    var name := RoomName(param);
    var room := GetRoom(rooms, name);
    if |room.clients| >= 2 then (rooms, [Send(conn, RoomFull), Disconnect(conn)])
    else
      var clients := if conn in room.clients then room.clients else room.clients + [conn];
      (rooms[name := room.(clients := clients)], [Send(conn, Welcome(conn, room.captured, room.tank))])
  }

  /** A message handled inside its room. */
  function Handle(room: Room, open: set<ClientId>, from: ClientId, msg: Inbound): (r: (Room, seq<Out>))
    ensures r.0.clients == room.clients
    ensures Distinct(room.clients) ==> forall i, j :: 0 <= i < j < |r.1| ==> r.1[i] != r.1[j]
    ensures msg.Unparsed? || msg.Untyped? || msg.OtherType? ==> r == (room, [])
    ensures (msg.Cursor? || msg.Ping?) ==> r.0 == room
    ensures (msg.Cursor? || msg.Ping?) && (msg.x.None? || msg.y.None?) ==> r.1 == []
    ensures msg.Cursor? && msg.x.Some? && msg.y.Some? ==>
      var m := CursorRelay(msg.x.value, msg.y.value);
      && (forall o :: o in r.1 ==> o.Send? && o.msg == m)
      && (forall id :: Send(id, m) in r.1 <==> id in room.clients && id in open && id != from)
    ensures msg.Ping? && msg.x.Some? && msg.y.Some? ==>
      var m := PingRelay(msg.x.value, msg.y.value);
      && (forall o :: o in r.1 ==> o.Send? && o.msg == m)
      && (forall id :: Send(id, m) in r.1 <==> id in room.clients && id in open && id != from)
    ensures msg.Capture? && msg.creatureId == [] ==> r == (room, [])
    ensures msg.Capture? && msg.creatureId != [] ==>
      && r.0 == room.(captured := room.captured + {msg.creatureId})
      && (forall o :: o in r.1 ==> o.Send? && o.msg == Captured(msg.creatureId))
      && (forall id :: Send(id, Captured(msg.creatureId)) in r.1 <==> id in room.clients && id in open)
    ensures msg.TankMove? && (msg.creatureId == [] || msg.x.None? || msg.y.None?) ==> r == (room, [])
    ensures msg.TankMove? && msg.creatureId != [] && msg.x.Some? && msg.y.Some? ==>
      var t := Tank(msg.x.value, msg.y.value, msg.vx.GetOr(0.0), msg.vy.GetOr(0.0));
      var m := TankMoveRelay(msg.creatureId, t.x, t.y, t.vx, t.vy);
      && r.0 == room.(tank := room.tank[msg.creatureId := t])
      && r.0.captured == room.captured
      && (forall o :: o in r.1 ==> o.Send? && o.msg == m)
      && (forall id :: Send(id, m) in r.1 <==> id in room.clients && id in open && id != from)
  {
    match msg
    case Unparsed => (room, [])
    case Untyped => (room, [])
    case OtherType(_) => (room, [])
    case Cursor(x, y) =>
      if x.None? || y.None? then (room, [])
      else (room, Broadcast(room.clients, open, CursorRelay(x.value, y.value), Some(from)))
    case Ping(x, y) =>
      if x.None? || y.None? then (room, [])
      else (room, Broadcast(room.clients, open, PingRelay(x.value, y.value), Some(from)))
    case Capture(cid) =>
      if cid == [] then (room, [])
      else (room.(captured := room.captured + {cid}), Broadcast(room.clients, open, Captured(cid), None))
    case TankMove(cid, x, y, vx, vy) =>
      if cid == [] || x.None? || y.None? then (room, [])
      else
        var t := Tank(x.value, y.value, vx.GetOr(0.0), vy.GetOr(0.0));
        (room.(tank := room.tank[cid := t]),
         Broadcast(room.clients, open, TankMoveRelay(cid, t.x, t.y, t.vx, t.vy), Some(from)))
  }

  /** The message handler: only a member's message reaches its room, and no
      other room changes. */
  function OnMessage(rooms: Rooms, open: set<ClientId>, name: string, from: ClientId, msg: Inbound): (r: (Rooms, seq<Out>))
    ensures name !in rooms || from !in rooms[name].clients ==> r == (rooms, [])
    ensures name in rooms && from in rooms[name].clients ==>
      var h := Handle(rooms[name], open, from, msg);
      r == (rooms[name := h.0], h.1)
  {
    if name !in rooms || from !in rooms[name].clients then (rooms, [])
    else
      var h := Handle(rooms[name], open, from, msg);
      (rooms[name := h.0], h.1)
  }

  /** The close handler: the client leaves, and a room left empty is deleted
      with its state. */
  function OnClose(rooms: Rooms, name: string, client: ClientId): (r: Rooms)
    ensures name !in rooms || client !in rooms[name].clients ==> r == rooms
    ensures name in rooms && client in rooms[name].clients ==>
      var left := Remove(rooms[name].clients, client);
      && (left == [] ==> r == rooms - {name})
      && (left != [] ==> r == rooms[name := rooms[name].(clients := left)])
  {
    if name !in rooms || client !in rooms[name].clients then rooms
    else
      var left := Remove(rooms[name].clients, client);
      if left == [] then rooms - {name} else rooms[name := rooms[name].(clients := left)]
  }

  lemma ConnectKeepsRoomsOk(rooms: Rooms, conn: ClientId, param: Option<string>)
    requires RoomsOk(rooms)
    ensures RoomsOk(OnConnect(rooms, conn, param).0)
  {
    var name := RoomName(param);
    var room := GetRoom(rooms, name);
    if |room.clients| < 2 && conn !in room.clients {
      var cs := room.clients + [conn];
      assert Distinct(cs) by {
        forall i, j | 0 <= i < j < |cs| ensures cs[i] != cs[j] {
          if j == |cs| - 1 {
            assert cs[i] in room.clients;
          }
        }
      }
    }
  }

  lemma MessageKeepsRoomsOk(rooms: Rooms, open: set<ClientId>, name: string, from: ClientId, msg: Inbound)
    requires RoomsOk(rooms)
    ensures RoomsOk(OnMessage(rooms, open, name, from, msg).0)
  {
  }

  lemma CloseKeepsRoomsOk(rooms: Rooms, name: string, client: ClientId)
    requires RoomsOk(rooms)
    ensures RoomsOk(OnClose(rooms, name, client))
  {
    if name in rooms && client in rooms[name].clients {
      assert |Remove(rooms[name].clients, client)| == |rooms[name].clients| - 1;
    }
  }

  /** One event. A close sends nothing, and every room keeps one or two
      distinct clients. */
  function Step(rooms: Rooms, open: set<ClientId>, e: Event): (r: (Rooms, seq<Out>))
    ensures e.Close? ==> r.1 == []
    ensures RoomsOk(rooms) ==> RoomsOk(r.0)
    ensures e.Connect? ==> r == OnConnect(rooms, e.conn, e.roomParam)
    ensures e.Message? ==> r == OnMessage(rooms, open, e.room, e.from, e.msg)
    ensures e.Close? ==> r.0 == OnClose(rooms, e.room, e.client)
  {
    match e
    case Connect(conn, param) =>
      if RoomsOk(rooms) then ConnectKeepsRoomsOk(rooms, conn, param); OnConnect(rooms, conn, param)
      else OnConnect(rooms, conn, param)
    case Message(name, from, msg) =>
      if RoomsOk(rooms) then MessageKeepsRoomsOk(rooms, open, name, from, msg); OnMessage(rooms, open, name, from, msg)
      else OnMessage(rooms, open, name, from, msg)
    case Close(name, client) =>
      if RoomsOk(rooms) then CloseKeepsRoomsOk(rooms, name, client); (OnClose(rooms, name, client), [])
      else (OnClose(rooms, name, client), [])
  }
}

/** Properties of the server that span several events. */
module ServerFacts {
  import opened Options
  import opened Protocol
  import opened Server

  /** A capture repeated is a capture once: the room state does not change again. */
  lemma CaptureIdempotent(rooms: Rooms, open: set<ClientId>, name: string, from: ClientId, cid: string)
    ensures var once := OnMessage(rooms, open, name, from, Capture(cid)).0;
      OnMessage(once, open, name, from, Capture(cid)).0 == once
  {
    var once := OnMessage(rooms, open, name, from, Capture(cid)).0;
    if name in rooms && from in rooms[name].clients && cid != [] {
      assert once[name].captured + {cid} == once[name].captured;
    }
  }

  /** Of two valid moves of the same creature, only the later one is kept,
      whoever of the room's clients sent them. */
  lemma TankLastWriteWins(rooms: Rooms, open: set<ClientId>, name: string, a: ClientId, b: ClientId,
                          cid: string, x1: real, y1: real, x2: real, y2: real,
                          vx1: Option<real>, vy1: Option<real>, vx2: Option<real>, vy2: Option<real>)
    requires name in rooms && a in rooms[name].clients && b in rooms[name].clients && cid != []
    ensures var first := OnMessage(rooms, open, name, a, TankMove(cid, Some(x1), Some(y1), vx1, vy1)).0;
      && OnMessage(first, open, name, b, TankMove(cid, Some(x2), Some(y2), vx2, vy2)).0
         == OnMessage(rooms, open, name, b, TankMove(cid, Some(x2), Some(y2), vx2, vy2)).0
      && first[name].captured == rooms[name].captured
  {
    var first := OnMessage(rooms, open, name, a, TankMove(cid, Some(x1), Some(y1), vx1, vy1)).0;
    var t := Tank(x2, y2, vx2.GetOr(0.0), vy2.GetOr(0.0));
    assert first[name].tank[cid := t] == rooms[name].tank[cid := t];
  }

  /** Cursor, ping and tank moves go only to the room's other open clients;
      only a capture comes back to its sender. */
  lemma RelayNeverToSender(rooms: Rooms, open: set<ClientId>, name: string, from: ClientId, msg: Inbound)
    ensures var out := OnMessage(rooms, open, name, from, msg).1;
      forall o :: o in out ==> o.Send? && name in rooms && o.to in rooms[name].clients && o.to in open
                               && (o.to == from ==> msg.Capture?)
  {
  }

  /** Once its last client leaves, a room is gone, and the next client to ask
      for it is welcomed into an empty room with no captured creatures and an
      empty tank. */
  lemma RejoinStartsFresh(rooms: Rooms, name: string, client: ClientId, conn: ClientId, param: Option<string>)
    requires name in rooms && rooms[name].clients == [client]
    requires RoomName(param) == name
    ensures OnConnect(OnClose(rooms, name, client), conn, param) ==
      (OnClose(rooms, name, client)[name := Room([conn], {}, map[])], [Send(conn, Welcome(conn, {}, map[]))])
  {
    assert Remove([client], client) == [];
    var after := OnClose(rooms, name, client);
    assert after == rooms - {name};
    assert name !in after;
    var r := OnConnect(after, conn, param);
    assert r.0[name].clients == [] + [conn] == [conn];
  }

  /** A room holding two clients turns every further connection away. */
  lemma ThirdConnectionRejected(rooms: Rooms, conn: ClientId, param: Option<string>)
    requires RoomsOk(rooms)
    requires RoomName(param) in rooms && |rooms[RoomName(param)].clients| == 2
    ensures OnConnect(rooms, conn, param) == (rooms, [Send(conn, RoomFull), Disconnect(conn)])
  {
  }
}

=== FILE: tank.dfy ===
/** Tank view motion and dragging (client/tank.js), drawing left out. The
    drift accelerations arrive as per-creature sine/cosine samples. */
module Tank {
  import opened Options
  import opened MathJs
  import opened Protocol
  import opened Creatures
  import Render

  const Pad: real := 18.0
  /** The header strip reserved at the top of the tank view. */
  const Header: real := 90.0

  datatype Rect = Rect(left: real, right: real, top: real, bottom: real)

  predicate NonEmpty(b: Rect) {
    b.left <= b.right && b.top <= b.bottom
  }

  predicate Inside(b: Rect, x: real, y: real) {
    b.left <= x <= b.right && b.top <= y <= b.bottom
  }

  /** The rectangle a creature's tank position is kept in: the canvas less the
      sprite's half-extents, an 18-pixel padding and the header strip. */
  function TankRect(canvas: Canvas, images: map<string, Render.Image>, c: Creature): Rect {
    var m := Render.SpriteMetrics(images, c);
    Rect(Pad + m.halfW, canvas.width - Pad - m.halfW, Header + m.halfH, canvas.height - Pad - m.halfH)
  }

  /** The tank state of the view: the creatures and who is being dragged. */
  datatype World = World(
    canvas: Canvas,
    images: map<string, Render.Image>,
    creatures: seq<Creature>,
    dragging: Option<string>,
    dragOffX: real, dragOffY: real)

  /** `initTankIfNeeded`: place a creature without a tank record at random in
      its rectangle (spanning at least 10 pixels per axis) with a random drift
      velocity; one that has a record is left alone. */
  function InitTankIfNeeded(canvas: Canvas, images: map<string, Render.Image>, d: Draw, c: Creature): (r: Creature)
    ensures c.tank.Some? ==> r == c
    ensures r.tank.Some? && r == c.(tank := r.tank)
    ensures c.tank.None? ==>
      var b := TankRect(canvas, images, c);
      && b.left <= r.tank.value.x < b.left + Max(10.0, b.right - b.left)
      && b.top <= r.tank.value.y < b.top + Max(10.0, b.bottom - b.top)
      && -30.0 <= r.tank.value.vx < 30.0 && -20.0 <= r.tank.value.vy < 20.0
  {
    if c.tank.Some? then c
    else
      var b := TankRect(canvas, images, c);
      var spanX := Max(10.0, b.right - b.left);
      var spanY := Max(10.0, b.bottom - b.top);
      ScaleUnit(d.rx, spanX);
      ScaleUnit(d.ry, spanY);
      c.(tank := Some(Tank(b.left + Mul(d.rx, spanX), b.top + Mul(d.ry, spanY),
                           (d.rvx - 0.5) * 60.0, (d.rvy - 0.5) * 40.0)))
  }

  /** `enterTankView`: every captured creature gets a tank record; nothing else changes. */
  function EnterTankView(canvas: Canvas, images: map<string, Render.Image>, draws: seq<Draw>,
                         cs: seq<Creature>): (r: seq<Creature>)
    requires |draws| == |cs|
    ensures |r| == |cs|
    ensures forall i :: 0 <= i < |cs| && cs[i].captured ==> r[i].tank.Some? && r[i] == cs[i].(tank := r[i].tank)
    ensures forall i :: 0 <= i < |cs| && (!cs[i].captured || cs[i].tank.Some?) ==> r[i] == cs[i]
  {
    seq(|cs|, i requires 0 <= i < |cs| =>
      if cs[i].captured then InitTankIfNeeded(canvas, images, draws[i], cs[i]) else cs[i])
  }

  /** The mouse is on a captured creature's tank sprite. */
  predicate HitAt(images: map<string, Render.Image>, c: Creature, x: real, y: real) {
    && c.captured && c.tank.Some?
    && Within(Point(x, y), Point(c.tank.value.x, c.tank.value.y), Render.SpriteMetrics(images, c).hitR)
  }

  /** What picking may do to a creature on its way: place it in the tank if it
      is captured and has no record yet. */
  predicate PickTouched(canvas: Canvas, images: map<string, Render.Image>, d: Draw, c: Creature, c': Creature) {
    c' == c || (c.captured && c' == InitTankIfNeeded(canvas, images, d, c))
  }

  /** A creature as the scan of `pickCaptured` leaves it: a captured creature
      is placed if need be (and then tested against the mouse); any other is
      passed over. */
  function Placed(canvas: Canvas, images: map<string, Render.Image>, d: Draw, c: Creature): (r: Creature)
    ensures PickTouched(canvas, images, d, c, r)
    ensures c.captured ==> r.tank.Some? && r == c.(tank := r.tank)
    ensures !c.captured || c.tank.Some? ==> r == c
  {
    if c.captured then InitTankIfNeeded(canvas, images, d, c) else c
  }

  /** The scan of `pickCaptured` over indices `n-1` down to 0. */
  function PickFrom(canvas: Canvas, images: map<string, Render.Image>, draws: seq<Draw>,
                    x: real, y: real, cs: seq<Creature>, n: nat): (r: (seq<Creature>, Option<nat>))
    requires |draws| == |cs| && n <= |cs|
    ensures |r.0| == |cs|
    ensures forall j :: n <= j < |cs| ==> r.0[j] == cs[j]
    ensures forall j :: 0 <= j < |cs| ==> PickTouched(canvas, images, draws[j], cs[j], r.0[j])
    ensures r.1.Some? ==> r.1.value < n && HitAt(images, r.0[r.1.value], x, y)
    ensures r.1.Some? ==> forall j :: r.1.value < j < n ==> !HitAt(images, r.0[j], x, y)
    ensures r.1.None? ==> forall j :: 0 <= j < n ==> !HitAt(images, r.0[j], x, y)
    ensures forall j :: 0 <= j < n ==>
      r.0[j] == if r.1.Some? && j < r.1.value then cs[j] else Placed(canvas, images, draws[j], cs[j])
    decreases n
  {
    if n == 0 then (cs, None)
    else
      var i := n - 1;
      var c := Placed(canvas, images, draws[i], cs[i]);
      if HitAt(images, c, x, y) then (cs[i := c], Some(i))
      else PickFrom(canvas, images, draws, x, y, cs[i := c], i)
  }

  /** `pickCaptured`: the captured creature under the mouse that is drawn
      last (highest index), placing creatures in the tank on the way. */
  function PickCaptured(w: World, x: real, y: real, draws: seq<Draw>): (r: (seq<Creature>, Option<nat>))
    requires |draws| == |w.creatures|
    ensures |r.0| == |w.creatures|
    ensures forall j :: 0 <= j < |w.creatures| ==> PickTouched(w.canvas, w.images, draws[j], w.creatures[j], r.0[j])
    ensures r.1.Some? ==> r.1.value < |r.0| && HitAt(w.images, r.0[r.1.value], x, y)
    ensures r.1.Some? ==> forall j :: r.1.value < j < |r.0| ==> !HitAt(w.images, r.0[j], x, y)
    ensures r.1.None? ==> forall j :: 0 <= j < |r.0| ==> !HitAt(w.images, r.0[j], x, y)
    ensures forall j :: 0 <= j < |w.creatures| ==>
      r.0[j] == if r.1.Some? && j < r.1.value then w.creatures[j] else Placed(w.canvas, w.images, draws[j], w.creatures[j])
  {
    PickFrom(w.canvas, w.images, draws, x, y, w.creatures, |w.creatures|)
  }

  /** `startDrag`: grab the picked creature, remembering the mouse's offset
      from its tank position; with nothing picked the drag state is unchanged. */
  function StartDrag(w: World, x: real, y: real, draws: seq<Draw>): (r: (World, bool))
    requires |draws| == |w.creatures|
    ensures r.0.canvas == w.canvas && r.0.images == w.images
    ensures r.0.creatures == PickCaptured(w, x, y, draws).0
    ensures r.1 <==> PickCaptured(w, x, y, draws).1.Some?
    ensures !r.1 ==> r.0.dragging == w.dragging && r.0.dragOffX == w.dragOffX && r.0.dragOffY == w.dragOffY
    ensures r.1 ==>
      var k := PickCaptured(w, x, y, draws).1.value;
      var c := r.0.creatures[k];
      && HitAt(w.images, c, x, y)
      && r.0.dragging == Some(c.id)
      && c.tank.value.x + r.0.dragOffX == x && c.tank.value.y + r.0.dragOffY == y
  {
    var pick := PickCaptured(w, x, y, draws);
    if pick.1.None? then (w.(creatures := pick.0), false)
    else
      var c := pick.0[pick.1.value];
      (w.(creatures := pick.0, dragging := Some(c.id),
          dragOffX := x - c.tank.value.x, dragOffY := y - c.tank.value.y), true)
  }

  /** `stopDrag`: release whatever is held. */
  function StopDrag(w: World): (r: World)
    ensures r.dragging.None?
    ensures r.creatures == w.creatures
  {
    w.(dragging := None)
  }

  /** `!state.draggingId`: no drag, or the falsy empty id. */
  predicate NoDrag(w: World) {
    w.dragging.None? || w.dragging.value == ""
  }

  /** The index of the creature a drag moves: the held id must be known and
      its creature captured. */
  function Held(w: World): (r: Option<nat>)
    ensures r.Some? ==> r.value < |w.creatures| && w.creatures[r.value].captured
    ensures r.Some? ==> !NoDrag(w) && w.creatures[r.value].id == w.dragging.value
    ensures !NoDrag(w) && ById(w.creatures, w.dragging.value).Some?
            && w.creatures[ById(w.creatures, w.dragging.value).value].captured
            ==> r == ById(w.creatures, w.dragging.value)
    ensures r.None? <==> NoDrag(w) || ById(w.creatures, w.dragging.value).None?
                         || !w.creatures[ById(w.creatures, w.dragging.value).value].captured
  {
    if NoDrag(w) then None
    else
      var k := ById(w.creatures, w.dragging.value);
      if k.None? || !w.creatures[k.value].captured then None else k
  }

  /** The held creature moved to the mouse position less the grab offset, clamped
      into its rectangle, with its drift stopped. */
  function DragTo(w: World, d: Draw, c: Creature, x: real, y: real): (r: Creature)
    ensures r.tank.Some? && r == c.(tank := r.tank)
    ensures var b := TankRect(w.canvas, w.images, c);
      && (NonEmpty(b) ==> Inside(b, r.tank.value.x, r.tank.value.y))
      && (Inside(b, x - w.dragOffX, y - w.dragOffY) ==>
            r.tank.value.x + w.dragOffX == x && r.tank.value.y + w.dragOffY == y)
    ensures var b := TankRect(w.canvas, w.images, c);
      r.tank.value.x == Clamp(x - w.dragOffX, b.left, b.right) && r.tank.value.y == Clamp(y - w.dragOffY, b.top, b.bottom)
    ensures r.tank.value.vx == 0.0 && r.tank.value.vy == 0.0
  {
    var c1 := InitTankIfNeeded(w.canvas, w.images, d, c);
    var b := TankRect(w.canvas, w.images, c1);
    c1.(tank := Some(Tank(Clamp(x - w.dragOffX, b.left, b.right), Clamp(y - w.dragOffY, b.top, b.bottom), 0.0, 0.0)))
  }

  /** `dragMove`: the held creature follows the mouse; without a held, known,
      captured creature nothing changes. */
  function DragMove(w: World, x: real, y: real, draws: seq<Draw>): (r: (World, bool))
    requires |draws| == |w.creatures|
    ensures r.1 <==> Held(w).Some?
    ensures !r.1 ==> r.0 == w
    ensures r.1 ==>
      var k := Held(w).value;
      r.0 == w.(creatures := w.creatures[k := DragTo(w, draws[k], w.creatures[k], x, y)])
  {
    var k := Held(w);
    if k.None? then (w, false)
    else (w.(creatures := w.creatures[k.value := DragTo(w, draws[k.value], w.creatures[k.value], x, y)]), true)
  }

  /** The sine and cosine samples of a creature's kind-specific drift phase
      for this frame (`Math.sin(tNow * f1 + seed)`, `Math.cos(tNow * f2 + seed)`). */
  datatype Wave = Wave(s: real, c: real)

  /** The kind-specific drift of one frame. Stars are slowed and bob in place
      instead of being pushed; every other kind keeps its place and is pushed
      only in proportion to `dt`, and a jellyfish also sinks. */
  function Drift(kind: Kind, t: Tank, w: Wave, dt: real): (r: Tank)
    ensures kind == Star ==> r.vx == t.vx * 0.85 && r.vy == t.vy * 0.85 && r.x == t.x
    ensures kind == Star && (w.s == 0.0 || dt == 0.0) ==> r.y == t.y
    ensures kind != Star ==> r.x == t.x && r.y == t.y
    ensures kind == Jelly && w == Wave(0.0, 0.0) ==> r.vx == t.vx && r.vy == t.vy - 10.0 * dt
  {
    match kind
    case Jelly => t.(vx := t.vx + w.s * 6.0 * dt, vy := t.vy + w.c * 8.0 * dt - 10.0 * dt)
    case Ray | Lion => t.(vx := t.vx + w.s * 12.0 * dt, vy := t.vy + w.c * 8.0 * dt)
    case Star => t.(vx := t.vx * 0.85, vy := t.vy * 0.85, y := t.y + w.s * 2.0 * dt)
    case Seaweed => t.(vx := t.vx + w.s * 6.0 * dt, vy := t.vy + w.c * 4.0 * dt)
    case _ => t.(vx := t.vx + w.s * 10.0 * dt, vy := t.vy + w.c * 6.0 * dt)
  }

  /** With no time elapsed only a star's drift changes anything. */
  lemma DriftStill(kind: Kind, t: Tank, w: Wave)
    requires kind != Star
    ensures Drift(kind, t, w, 0.0) == t
  {
  }

  /** The push of each kind over one second of a wave at its peak: a
      jellyfish 6 across and 8 up less its sinking of 10, a ray or lion 12
      and 8, a seaweed 6 and 4, any other swimmer 10 and 6; a star bobs by 2. */
  lemma DriftAmplitudes(kind: Kind, t: Tank)
    ensures var r := Drift(kind, t, Wave(1.0, 1.0), 1.0);
      && (kind == Jelly ==> r.vx == t.vx + 6.0 && r.vy == t.vy - 2.0)
      && (kind == Ray || kind == Lion ==> r.vx == t.vx + 12.0 && r.vy == t.vy + 8.0)
      && (kind == Seaweed ==> r.vx == t.vx + 6.0 && r.vy == t.vy + 4.0)
      && (kind == Seahorse || kind == Urchin || kind == Octo ==> r.vx == t.vx + 10.0 && r.vy == t.vy + 6.0)
      && (kind == Star ==> r.y == t.y + 2.0)
  {
  }

  /** Damping by 0.98 per frame, then Euler integration. */
  function Glide(t: Tank, dt: real): (r: Tank)
    ensures r.vx == t.vx * 0.98 && r.vy == t.vy * 0.98
    ensures r.x == t.x + r.vx * dt && r.y == t.y + r.vy * dt
  {
    var vx := t.vx * 0.98;
    var vy := t.vy * 0.98;
    Tank(t.x + vx * dt, t.y + vy * dt, vx, vy)
  }

  /** Clamp one coordinate into [lo, hi], negating the velocity at each wall
      it is pushed back from (first the low wall, then the high one). When
      the sprite is wider than the room (`hi < lo`) both walls fire from
      below, so the coordinate lands on `hi` with the velocity negated twice. */
  function Reflect(p: real, v: real, lo: real, hi: real): (r: (real, real))
    ensures lo <= hi ==> r.0 == Clamp(p, lo, hi)
    ensures lo <= p <= hi ==> r == (p, v)
    ensures lo <= hi && p < lo ==> r == (lo, -v)
    ensures lo <= hi && hi < p ==> r == (hi, -v)
    ensures hi < lo ==> r == (hi, if p < lo then v else -v)
    ensures r.1 == v || r.1 == -v
  {
    var (p1, v1) := if p < lo then (lo, -v) else (p, v);
    if p1 > hi then (hi, -v1) else (p1, v1)
  }

  /** One frame of free motion inside `b`. */
  function StepTank(kind: Kind, b: Rect, t: Tank, w: Wave, dt: real): (r: Tank)
    ensures NonEmpty(b) ==> Inside(b, r.x, r.y)
    ensures var g := Glide(Drift(kind, t, w, dt), dt);
      && (r.vx == g.vx || r.vx == -g.vx) && (r.vy == g.vy || r.vy == -g.vy)
      && (NonEmpty(b) ==> (r.vx == -g.vx <==> !(b.left <= g.x <= b.right) || g.vx == 0.0))
      && (NonEmpty(b) ==> (r.vy == -g.vy <==> !(b.top <= g.y <= b.bottom) || g.vy == 0.0))
      && (NonEmpty(b) ==> r.x == Clamp(g.x, b.left, b.right) && r.y == Clamp(g.y, b.top, b.bottom))
  {
    var g := Glide(Drift(kind, t, w, dt), dt);
    var (x, vx) := Reflect(g.x, g.vx, b.left, b.right);
    var (y, vy) := Reflect(g.y, g.vy, b.top, b.bottom);
    Tank(x, y, vx, vy)
  }

  /** One creature's frame of `updateTank`: a captured creature is placed if
      it has no tank record yet and, unless it is the one held, drifts,
      glides and bounces inside its rectangle. */
  function TankCreature(canvas: Canvas, images: map<string, Render.Image>, dragging: Option<string>,
                        d: Draw, wave: Wave, dt: real, c: Creature): (r: Creature)
    ensures !c.captured ==> r == c
    ensures c.captured && dragging == Some(c.id) ==> r == InitTankIfNeeded(canvas, images, d, c)
    ensures c.captured ==> r.tank.Some? && r == c.(tank := r.tank)
    ensures c.captured && dragging != Some(c.id) ==>
      var b := TankRect(canvas, images, c);
      var t := InitTankIfNeeded(canvas, images, d, c).tank.value;
      && r.tank.value == StepTank(c.kind, b, t, wave, dt)
      && (NonEmpty(b) ==> Inside(b, r.tank.value.x, r.tank.value.y))
  {
    if !c.captured then c
    else
      var c1 := InitTankIfNeeded(canvas, images, d, c);
      Render.MetricsOfLook(images, c, c1);
      if dragging == Some(c.id) then c1
      else c1.(tank := Some(StepTank(c.kind, TankRect(canvas, images, c1), c1.tank.value, wave, dt)))
  }

  /** `updateTank`: every captured creature that is not held moves one
      frame; the `enterTankView` it starts with places exactly the creatures
      the per-creature step would place anyway (`EnterTankViewRedundant`). */
  function UpdateTank(w: World, draws: seq<Draw>, waves: seq<Wave>, dt: real): (r: World)
    requires |draws| == |w.creatures| && |waves| == |w.creatures|
    ensures r == w.(creatures := r.creatures)
    ensures |r.creatures| == |w.creatures|
    ensures forall i :: 0 <= i < |w.creatures| ==>
      r.creatures[i] == TankCreature(w.canvas, w.images, w.dragging, draws[i], waves[i], dt, w.creatures[i])
  {
    w.(creatures := seq(|w.creatures|, i requires 0 <= i < |w.creatures| =>
      TankCreature(w.canvas, w.images, w.dragging, draws[i], waves[i], dt, w.creatures[i])))
  }

  /** Placing the captured creatures first changes nothing about the frame:
      the per-creature step places a creature with no tank record itself,
      with the same draws. */
  lemma EnterTankViewRedundant(w: World, draws: seq<Draw>, waves: seq<Wave>, dt: real)
    requires |draws| == |w.creatures| && |waves| == |w.creatures|
    ensures var entered := EnterTankView(w.canvas, w.images, draws, w.creatures);
      UpdateTank(w.(creatures := entered), draws, waves, dt) == UpdateTank(w, draws, waves, dt)
  {
    var entered := EnterTankView(w.canvas, w.images, draws, w.creatures);
    var a := UpdateTank(w.(creatures := entered), draws, waves, dt);
    var b := UpdateTank(w, draws, waves, dt);
    forall i | 0 <= i < |w.creatures| ensures a.creatures[i] == b.creatures[i] {
      var c := w.creatures[i];
      if c.captured {
        assert entered[i] == InitTankIfNeeded(w.canvas, w.images, draws[i], c);
        assert InitTankIfNeeded(w.canvas, w.images, draws[i], entered[i]) == entered[i];
      }
    }
  }
}

=== FILE: text.dfy ===
/** The JavaScript string operations the room and view names go through:
    `String.prototype.trim`, `toLowerCase` (ASCII letters only) and
    `split` on a one-character separator. */
module Text {

  /** The characters `trim` removes: ECMAScript WhiteSpace (tab, vertical tab,
      form feed, space, no-break space, byte-order mark and the Unicode Zs
      category) and LineTerminator (LF, CR, LS, PS). */
  predicate IsSpace(ch: char) {
    || ch == '\t' || ch == '\n' || ch == '\U{000B}' || ch == '\U{000C}' || ch == '\r'
    || ch == ' ' || ch == '\U{00A0}' || ch == '\U{1680}'
    || ('\U{2000}' <= ch <= '\U{200A}')
    || ch == '\U{2028}' || ch == '\U{2029}' || ch == '\U{202F}' || ch == '\U{205F}'
    || ch == '\U{3000}' || ch == '\U{FEFF}'
  }

  /** Every character of `s[lo..hi]` is white space. */
  predicate SpaceIn(s: string, lo: nat, hi: nat) {
    forall k :: lo <= k < hi && k < |s| ==> IsSpace(s[k])
  }

  predicate AllSpace(s: string) {
    SpaceIn(s, 0, |s|)
  }

  /** The first index from `i` on that is not white space, or `|s|`. */
  function SkipSpace(s: string, i: nat): (r: nat)
    requires i <= |s|
    ensures i <= r <= |s| && SpaceIn(s, i, r)
    ensures r == |s| || !IsSpace(s[r])
    decreases |s| - i
  {
    if i == |s| || !IsSpace(s[i]) then i else SkipSpace(s, i + 1)
  }

  /** The end of `s[lo..j]` with its trailing white space dropped. */
  function SkipSpaceBack(s: string, lo: nat, j: nat): (r: nat)
    requires lo <= j <= |s|
    ensures lo <= r <= j && SpaceIn(s, r, j)
    ensures r == lo || !IsSpace(s[r - 1])
    decreases j
  {
    if j == lo || !IsSpace(s[j - 1]) then j else SkipSpaceBack(s, lo, j - 1)
  }

  /** `trim`: the longest infix with no white space at either end, obtained by
      cutting only white space. */
  function Trim(s: string): (r: string)
    ensures exists i, j :: 0 <= i <= j <= |s| && r == s[i..j] && SpaceIn(s, 0, i) && SpaceIn(s, j, |s|)
    ensures r == [] || (!IsSpace(r[0]) && !IsSpace(r[|r| - 1]))
    ensures r == [] <==> AllSpace(s)
  {
    var i := SkipSpace(s, 0);
    var j := SkipSpaceBack(s, i, |s|);
    assert i < |s| ==> !IsSpace(s[i]) && i < j;
    s[i..j]
  }

  /** A string with no white space at either end is its own trim. */
  lemma TrimUntouched(s: string)
    requires s == [] || (!IsSpace(s[0]) && !IsSpace(s[|s| - 1]))
    ensures Trim(s) == s
  {
    assert s[0..|s|] == s;
  }

  /** Trimming twice is trimming once. */
  lemma {:induction false} TrimIdempotent(s: string)
    ensures Trim(Trim(s)) == Trim(s)
  {
    TrimUntouched(Trim(s));
  }

  function LowerChar(ch: char): (r: char)
    ensures 'A' <= ch <= 'Z' ==> 'a' <= r <= 'z' && r as int - ch as int == 32
    ensures !('A' <= ch <= 'Z') ==> r == ch
  {
    if 'A' <= ch <= 'Z' then (ch as int + 32) as char else ch
  }

  /** `toLowerCase` on ASCII letters; every other character is kept. */
  function Lower(s: string): (r: string)
    ensures |r| == |s|
    ensures forall i :: 0 <= i < |s| ==> r[i] == LowerChar(s[i])
    ensures forall i :: 0 <= i < |s| ==> !('A' <= r[i] <= 'Z')
  {
    seq(|s|, i requires 0 <= i < |s| => LowerChar(s[i]))
  }

  lemma LowerIdempotent(s: string)
    ensures Lower(Lower(s)) == Lower(s)
  {
  }

  /** `s.split(sep)`: the pieces between occurrences of `sep`, always at least one. */
  function Split(s: string, sep: char): (r: seq<string>)
    ensures |r| >= 1
    ensures forall k :: 0 <= k < |r| ==> sep !in r[k]
    ensures sep !in s ==> r == [s]
  {
    if s == [] then [[]]
    else
      var t := Split(s[1..], sep);
      assert sep !in s ==> sep !in s[1..] && s == [s[0]] + s[1..];
      if s[0] == sep then [[]] + t
      else [[s[0]] + t[0]] + t[1..]
  }

  /** The pieces rejoined with the separator. */
  function Join(parts: seq<string>, sep: char): string
    requires |parts| >= 1
  {
    if |parts| == 1 then parts[0] else parts[0] + [sep] + Join(parts[1..], sep)
  }

  /** Splitting loses nothing: rejoining the pieces gives back the string. */
  lemma {:induction false} SplitJoin(s: string, sep: char)
    ensures Join(Split(s, sep), sep) == s
  {
    if s != [] {
      SplitJoin(s[1..], sep);
      var t := Split(s[1..], sep);
      if s[0] != sep && |t| > 1 {
        assert ([s[0]] + t[0]) + [sep] + Join(t[1..], sep) == [s[0]] + (t[0] + [sep] + Join(t[1..], sep));
      }
    }
  }

  /** The first piece is the text before the first separator. */
  lemma {:induction false} SplitHead(s: string, sep: char, i: nat)
    requires i <= |s| && sep !in s[..i] && (i == |s| || s[i] == sep)
    ensures Split(s, sep)[0] == s[..i]
    ensures i < |s| ==> Split(s, sep)[1..] == Split(s[i + 1..], sep)
  {
    if i > 0 {
      assert s[1..][..i - 1] == s[1..i];
      assert sep !in s[1..][..i - 1] by { assert forall k :: 0 <= k < i - 1 ==> s[1..][k] == s[..i][k + 1]; }
      SplitHead(s[1..], sep, i - 1);
      assert s[0] == s[..i][0];
      if i < |s| {
        assert s[1..][i..] == s[i + 1..];
      }
    }
  }

  /** The second piece is the text between the first and the second separator. */
  lemma {:induction false} SplitSecond(s: string, sep: char, i: nat, j: nat)
    requires i < j <= |s| && sep !in s[..i] && s[i] == sep
    requires sep !in s[i + 1..j] && (j == |s| || s[j] == sep)
    ensures |Split(s, sep)| >= 2 && Split(s, sep)[1] == s[i + 1..j]
  {
    SplitHead(s, sep, i);
    var rest := s[i + 1..];
    assert rest[..j - i - 1] == s[i + 1..j];
    SplitHead(rest, sep, j - i - 1);
  }
}
